=== FILE: README.md ===
# Two-entity spoken dialogue: a Dafny model

This project models the orchestration core of a browser application in which two
configured language-model "entities" hold a spoken dialogue. A FastAPI WebSocket server
(`app.py`) alternates the two entities for at most 22 turns. It asks a chat-completion
service for each reply, synthesises the reply to an MP3 with a speech helper
(`azure_tts_helper.py`), announces it to the page and waits for the page to report that
playback finished. The page (`script.js`) validates and sends the start request, shows
the transcript, plays the audio, acknowledges each turn whose playback ends, fails or
falls back to the 2-second timer, and fades each entity's waveform in and out. A clip
paused by muting never ends, so that turn is not acknowledged by the page.

Modules, one per concern of the source:

| file | module | models |
|---|---|---|
| common.dfy | `Common` | optional values, the two entities, a value per entity (`Pair`) |
| text.dfy | `Text` | JavaScript `trim` and Python `strip` whitespace, UTF-16 length, `str(int)` and its parse |
| protocol.dfy | `Protocol` | the JSON messages on the WebSocket |
| chat_messages.dfy | `ChatMessages` | `gpt4o_mini_azure_history`'s message list (transformers.py) |
| tts_helper.dfy | `TtsHelper` | voice lookup, empty-text guard, rate string, file name, cleanup predicate, stop flag |
| conversation.dfy | `Conversation` | `run_conversation`: validation, defaults, prompt composition, turn loop, histories, stop flag |
| endpoint.dfy | `Endpoint` | the three per-connection maps, their cleanup, the audio-finished event, request dispatch |
| waveform.dfy | `Waveform` | waveform opacity as a bounded counter and the shared animation handle |
| client.dfy | `Client` | the page as a step function `(page, event) -> (page, commands)` |

External services enter as inputs:
- The completion service's answer per turn is `LlmReply`: content that may be `None`, or a raised exception.
- Whether the speech service completed is a flag per turn, and so is the clock reading used in the file name.
- The credentials check is a flag.
- The point where the cancellation of the run's task lands is a `StopTime`: never, or at the n-th suspension point of the run. The model ends the run there through the run's stop-flag checks. In the program those checks never fire during a run: `start`, `stop` and a disconnect cancel and await the task before anything sets the flag (app.py:149-157, 170-182, 195-203). What ends the run is the `CancelledError` raised at that await, and nothing is sent after it in either case.

On the page, socket callbacks, audio-element callbacks, timers and animation frames are events. Socket sends, audio starts and pauses, and timer arming are commands.

`Conversation.RunConversation` is `Converse` applied to `Compose(config)`. The
conversation lemmas are stated for `Converse` with any composed settings, so they hold in
particular for the ones `Compose` produces. `ComposeStatesWordLimit` states what
`Compose` produces.

## Model

| member | source | states |
|---|---|---|
| Text.TrimEmptyIff | script.js:760-765 | trimming leaves nothing exactly when every character is whitespace, so `!system1.trim()` means the field is blank |
| Text.Utf16Length | script.js:768-781 | JavaScript `.length` counts between one and two units per character, never fewer than Python's `len` |
| Text.IntToStringRoundTrip | app.py:278-287 | the decimal rendering of the response length parses back to the same integer, negative values included |
| ChatMessages.AsItem | transformers.py:29-30 | a history dict built from a message is well formed and projects back to that message |
| ChatMessages.BuildMessages | transformers.py:24-34 | the list is the system message followed by the projection of the well-formed entries, and its length is one plus their count |
| ChatMessages.ProjectionLength | transformers.py:27-34 | malformed entries are dropped and nothing else: one message per well-formed entry |
| ChatMessages.ProjectionPosition | transformers.py:27-30 | each well-formed entry appears, reduced to `role` and `content`, at the index counting the well-formed entries before it |
| ChatMessages.ProjectionOrder | transformers.py:27-30 | an earlier well-formed entry lands strictly before a later one, so the original order is kept |
| ChatMessages.ProjectionOfMessages | transformers.py:27-30 | a history of proper role/content dicts passes through unchanged |
| TtsHelper.GetVoiceName | azure_tts_helper.py:103-105 | a known key gives its mapped voice and any other key gives the `entity1` voice |
| TtsHelper.VoiceNameIsConfigured | azure_tts_helper.py:103-105 | whatever the key, the voice is one of the configured voices |
| TtsHelper.RatePercent | azure_tts_helper.py:134 | the percent change is `(speed - 1) * 100` truncated toward zero, for both signs |
| TtsHelper.RateString | azure_tts_helper.py:135-138 | the rate ends in `%` and starts with `+` exactly for a positive change and with `-` exactly for a negative one |
| TtsHelper.RateStringRoundTrip | azure_tts_helper.py:135-138 | reading the rate attribute back gives the percent it was built from |
| TtsHelper.PrepareAudio | azure_tts_helper.py:107-164 | blank text after `strip()` is refused before any other work; otherwise the request has the `azure_<key>_<ms>.mp3` path in the audio directory and the looked-up voice, and it is plain stripped text exactly when the rate is 0 and SSML with the rate string otherwise |
| TtsHelper.GeneratedFileIsRequested | azure_tts_helper.py:107-209 | a file path is returned exactly when the text is not blank and the synthesis completed, and it is the path of the prepared request |
| TtsHelper.BasenameOfAudioPath | app.py:318 | for a voice key without `/`, the URL sent to the page ends in the generated file's own name, whatever the directory |
| TtsHelper.GeneratedNamesAreManaged | azure_tts_helper.py:121-124 | every file name the helper generates has the `azure_` prefix and `.mp3` suffix the cleanup looks for |
| TtsHelper.CleanupOldFiles | azure_tts_helper.py:220-235 | a file survives exactly when it is not a managed audio name older than `now - max_age_hours * 3600` |
| TtsHelper.CleanupOldFilesIdempotent | azure_tts_helper.py:220-235 | a second cleanup at the same moment deletes nothing more |
| TtsHelper.CleanupAllRemovesGenerated | app.py:118-119 | with a maximum age of 0 hours, every generated file older than now is deleted |
| TtsHelper.StopAllAudio | azure_tts_helper.py:211-213 | the stop flag is set and the audio directory is unchanged |
| TtsHelper.ResetStopFlag | azure_tts_helper.py:216-218 | the stop flag is cleared and the audio directory is unchanged |
| TtsHelper.StopFlagRoundTrip | azure_tts_helper.py:211-218 | stop and reset undo each other and each is idempotent, so no other field changes |
| Conversation.ResolveSettings | app.py:242-254 | each setting is the sent value when present and otherwise its default: voice Brian/Ava, speed 1.0, temperature 0.7, top-p 1.0, response length 35 |
| Conversation.WithWordLimit | app.py:278-287 | the composed prompt starts with the user prompt, continues with the instructions and ends with "Keep your responses to N words maximum." |
| Conversation.WordLimitRoundTrip | app.py:278-287 | the word limit read back out of a composed prompt is the N it was composed with |
| Conversation.ComposeStatesWordLimit | app.py:242-287 | each entity runs with its own resolved settings, and its prompt begins with its own text and carries its own response length as the word limit |
| Conversation.MessagesOfCall | transformers.py:24-34 | a history the server built reaches the completion service whole, right after the system message |
| Conversation.SafeSend | app.py:217-227 | once the stop flag is set nothing is sent; otherwise exactly the message is appended |
| Conversation.PlayAudio | app.py:298-377 | a play only appends messages, and a play started after the stop flag is set does nothing |
| Conversation.Announce | app.py:318-377 | an announced play sends `speaking` for its entity, followed by at most a `finished_speaking` |
| Conversation.Converse | app.py:229-240 | a refused start sends exactly one `error` |
| Conversation.RejectedStart | app.py:229-240 | prompt 1 over 375 code points, then prompt 2, then missing credentials each produce their own single `error`, and no turn is taken |
| Conversation.PlayAudioSpeakers | app.py:298-326 | a play announces its entity exactly when the stop has not arrived by its first suspension; otherwise the run ends stopped |
| Conversation.TakeTurnSpeakers | app.py:432-469 | a turn adds its own speaker or nothing, and adds it whenever the run is neither stopped nor failed |
| Conversation.TakeTurnKeepsInvariant | app.py:432-469 | one turn keeps the speakers alternating, at most one per turn |
| Conversation.RunTurnsAlternates | app.py:405-469 | the remaining turns keep the alternation invariant up to the last turn |
| Conversation.ConversationAlternates | app.py:405-469 | the `speaking` messages name entities 1, 2, 1, 2, …, at most 22 of them, and exactly 22 when nothing stops or fails |
| Conversation.RunTurnsSendsMore | app.py:405-469 | the turn loop only appends to what was sent |
| Conversation.PlayAudioUnderStop | app.py:298-316 | a play under a stop sends a prefix of the same play unstopped, and sends the same while the stop has not arrived |
| Conversation.TakeTurnUnderStop | app.py:432-469 | a turn under a stop sends a prefix of the same turn unstopped |
| Conversation.RunTurnsUnderStop | app.py:411-453 | the loop under a stop sends a prefix of the loop unstopped |
| Conversation.StopOnlyTruncates | app.py:298-453 | everything a stopped conversation sends, the same conversation sends unstopped, in the same order: the stop flag never adds or changes a message |
| Conversation.StoppedRunIsSilent | app.py:411-453 | once the flag is set, the run sends nothing more |
| Conversation.RecordExtends | app.py:405-467 | recording a turn extends both histories to the expected views: the seed starts entity 2's history alone, and a truthy reply adds `user` for the listener and `assistant` for the speaker |
| Conversation.TakeTurnKeepsHistories | app.py:416-467 | one turn keeps histories and calls equal to their expected values |
| Conversation.RunTurnsKeepsHistories | app.py:391-469 | the turn loop keeps the history invariant to the end |
| Conversation.ConversationHistories | app.py:391-469 | however the run ends, each history is its entity's view of the completed turns; each completion call was the speaker's prompt plus the speaker's history at that moment; one call per completed turn, plus one if a completion raised |
| Conversation.MirrorAll | app.py:427-467 | swapping roles keeps length and swaps each message's role |
| Conversation.ViewsMirror | app.py:427-467 | both views hold the same replies in the same order with `user` and `assistant` swapped |
| Conversation.HistoriesMirror | app.py:405-467 | apart from entity 2's leading seed entry, the two histories mirror each other |
| Endpoint.CleanupConversationState | app.py:103-124 | afterwards the id is in none of the three maps and counts as stopped; an event was released exactly when one was registered; other connections' entries in the three maps are untouched; the speech helper's stop flag is set, though nothing reads it, and every managed file older than now is deleted; the audio directory is shared, so other connections' files older than now are deleted too |
| Endpoint.CleanupKeepsWaitersReleasable | app.py:109-112 | the event is set before it is dropped, so the waiting task is woken and no task is left on an unreachable event |
| Endpoint.CleanupIdempotent | app.py:103-124 | a second cleanup changes nothing and releases nothing |
| Endpoint.CancelTask | app.py:149-154 | cancelling a running conversation removes it from all three maps and ends its wait, and leaves other connections' map entries alone; its cleanup still deletes every connection's managed files in the shared audio directory |
| Endpoint.BeginWait | app.py:127-134 | after `wait_for_audio_finished` starts, the event exists, is cleared, and the task waits on it |
| Endpoint.BeginWaitKeepsWaitersReleasable | app.py:127-134 | a new wait is on a registered, unset event |
| Endpoint.Dispatch | app.py:142-191 | only `stop` produces a reply and it is exactly one `stopped`; no request touches another connection's entries |
| Endpoint.Disconnect | app.py:193-204 | a disconnect leaves the id in none of the maps and counts it as stopped |
| Endpoint.StartLaunchesFresh | app.py:147-166 | after `start` there is one running, unstopped conversation with no stale event and no leftover waiter |
| Endpoint.StopForgetsConnection | app.py:168-186 | after `stop` the connection is forgotten and counts as stopped, the only reply is one `stopped`, the stop flag is set and the files are cleaned once |
| Endpoint.AudioFinishedSetsOnlyExisting | app.py:188-191 | `audio_finished` sets and releases an existing event, never creates one, and is otherwise a no-op |
| Endpoint.WaitThenAudioFinished | app.py:127-134 | a task that begins waiting is released by the next `audio_finished`, which leaves the event set |
| Endpoint.DispatchKeepsWaitersReleasable | app.py:142-191 | every request keeps each blocked task on a registered, unset event |
| Waveform.DrawFrame | script.js:343-356 | a frame of the running loop repaints its entity; a frame of a cancelled loop does nothing; opacity stays in range |
| Waveform.StartAnimation | script.js:310-331 | starting cancels whatever loop ran, and the new loop is the only one; it is active with visible opacity when the analyser exists |
| Waveform.FadeOutFrame | script.js:493-540 | a fade-out frame lowers opacity; the canvas is cleared, the shared loop cancelled and the class removed exactly at 0 and never before |
| Waveform.DrawFramesFadeIn | script.js:343-356 | n frames raise opacity by n steps of 0.05, capped at full |
| Waveform.FadeOutFramesFadeOut | script.js:495-508 | in whole steps of 0.05, n fade-out frames with no drawing frame of that entity between them lower opacity by 2n steps, floored at 0 |
| Waveform.FadeOutEnds | script.js:493-540 | in whole steps of 0.05, with the entity's drawing loop already cancelled, the fade-out from o steps reaches 0 after ⌈o/2⌉ frames and only then clears and cancels |
| Waveform.DrawThenFade | script.js:329-513 | while the entity's own loop still runs, as after `onended`, a drawing frame plus a fade-out frame lower opacity by one step (two from full), and the loop keeps running while opacity is left |
| Waveform.DrawFadeFramesFadeOut | script.js:495-513 | with the entity's own loop running, a fade from o steps below full takes exactly o rounds; before the last round the loop still runs, and the last round cancels it |
| Waveform.FullFadeWhileDrawing | script.js:697-714 | a playback that ends at full opacity fades out in 19 rounds of a drawing and a fade-out frame, not 10 |
| Waveform.FadeOutStopsOtherLoop | script.js:509-515 | the handle is shared: fading one entity out to 0 stops the other entity's drawing loop |
| Client.UpdateCounter | script.js:559-576 | the counter shows the raw field's UTF-16 length; `warning` is present exactly above 300 units and `error` exactly from 375; every class other than these two is kept |
| Client.CounterForgetsPriorFlags | script.js:559-576 | the two flag classes depend only on the field's UTF-16 length, not on the classes the counter had before |
| Client.CounterStyles | script.js:559-576 | a second update with the same text changes nothing; `error` always comes with `warning`; a field of exactly 375 units shows both |
| Client.ValidatePrompts | script.js:759-781 | accepted exactly when both trimmed prompts are non-empty and at most 375 units long; the accepted prompts are the trimmed ones; a blank prompt gets the empty-prompt message |
| Client.LimitIsInclusive | script.js:768-781 | prompts of exactly 375 units are accepted |
| Client.RefusedStartDoesNothing | script.js:759-781 | a refused start issues no command and only shows the error, so `conversationActive` keeps its value |
| Client.AcceptedStartSendsRequest | script.js:782-844 | when connected, exactly one `start` with the trimmed prompts and the mapped response lengths is sent, the page is activated and the transcript cleared; otherwise a socket is opened and polled and nothing is sent yet |
| Client.ServerReadsStartRequest | script.js:823-843 | the server accepts an accepted request's prompts, takes each voice and slider as sent, and resolves the response length to 35/60/90 (35 for an unknown option, which equals `short`) |
| Client.InboundFilter | script.js:611-655 | while inactive every message but `stopped` is dropped; an unknown type changes nothing; `stopped` always runs the cleanup |
| Client.SpeakingAppendsOne | script.js:657-674 | `speaking` appends exactly one entry, marked speaking, and plays exactly when the URL is truthy and not muted, otherwise arms the 2-second fallback |
| Client.PlaybackEndAcknowledges | script.js:697-728 | the fallback, `onended`, `onerror` and a rejected `play()` each send one `audio_finished` exactly when the socket is open; `onended` and `onerror` drop the current audio; only `onended` clears the speaking mark; every ending but the fallback fades out that entity's waveform |
| Client.TurnIsAcknowledged | script.js:657-728 | a turn whose playback ends with a single ending event right after `speaking` (the fallback timer, `onended`, `onerror` or a rejected `play()`) is acknowledged once over an open socket |
| Client.FailedPlaybackAcknowledgesTwice | script.js:707-721 | a failing playback can be acknowledged twice, by `onerror` and by the rejected `play()` |
| Client.StopAndStoppedClean | script.js:735-869 | stop and `stopped` both end with no audio, an empty queue and an inactive page; only stop sends `stop`, and only over an open socket |
| Client.ErrorDeactivates | script.js:752-757 | `error` deactivates and shows the message, or "An unknown error occurred" when it is missing or empty |
| Client.MuteToggles | script.js:878-894 | mute flips the flag, pauses the current audio only when muting, keeps the audio, and twice is the identity |
| Client.LastOf | script.js:946-950 | finds the last entry of the entity, or reports that it has none |
| Client.MarkSpeaking | script.js:946-959 | only the entity's last entry changes, and only its speaking mark |
| Client.MarkSpeakingTouchesOnlyLast | script.js:946-959 | entries of the other entity and earlier entries of the same entity are untouched |
| Client.StepKeepsOpacity | script.js:343-356 | every page event keeps both opacities within [0, 1] |

## Behaviour of the code worth knowing

These behaviours of the code are easy to expect otherwise. The model follows the code in each case:

- Hard stop: the stop button's handler is commented "Stop all waveform animations immediately" (script.js:862-864), but it calls the same fading `stopWaveformAnimation` as the end of playback (`Client.Halt`).
- Visualisation loops: both entities share one animation handle, `waveformAnimationId` (script.js:310-331, 509-513). Fading one entity out to 0 cancels the other's drawing loop (`Waveform.FadeOutStopsOtherLoop`).
- Connection poll: while the socket is connecting, the start click re-checks every 100 ms without limit (script.js:786-800). `ConnectPoll` re-arms itself the same way.
- `audio_finished`: a failing clip can send it twice, from `onerror` and from the rejected `play()` (script.js:707-721; `Client.FailedPlaybackAcknowledgesTwice`).
- Clips: a `speaking` message starts a new `Audio` and replaces `currentAudio` without pausing the previous clip (script.js:677-680).
- Timers on stop: the 2-second fallback timer (script.js:668-670) is not cancelled by stop. It fires after a stop and sends `audio_finished` if the socket is open.
- Speaking mark: only `onended` clears it (script.js:697-698). `onerror` and a rejected `play()` leave the entry marked as speaking.
- Muting: muting pauses the current clip (script.js:882-887; `Client.MuteToggles`). A paused clip never fires `onended`, and unmuting does not resume it. That turn is never acknowledged by the page, and the server moves on only when its wait times out.
- Transport close: `onclose` only marks the page disconnected and inactive (script.js:620-626). Audio and waveforms are left alone.
- Prompt length: the page counts UTF-16 units (`.length`, script.js:768-781) and the server counts code points (`len`, app.py:230-240). The page's limit is the stricter of the two.

## Left out

- DOM, canvas drawing, HTML escaping, slider labels, sample presets and settings toggles are UI only. The start and stop buttons' enabled state is left out too, and with it the 1-second cooldown after stop.
- The WebSocket transport, the speech service and the completion service are inputs. Malformed JSON and a request without `type` raise in the source and are not modelled.
- asyncio scheduling is not modelled. Task cancellation appears as its cleanup (`Endpoint.CancelTask`) and, inside the run, as the `StopTime` at which it lands.
- A cancellation that lands inside `websocket.send_text` is swallowed by `safe_send`'s bare `except:` (app.py:225-227). The run then goes on to its natural end, while the handler that cancelled it waits for it (app.py:173). The model assumes every cancellation ends the run at the await where it lands.
- `wait_for`'s timeout (`duration + 3` seconds) is left out because the duration is a floating-point estimate from the file size. A wait is modelled as one suspension point.
- Deletion of each turn's audio file `duration + 5` seconds later (`cleanup_audio_file`) is left out, because it is timing only.
- The source records every reply before playing it except one: the first reply of entity 2 (turn 1) is recorded after its playback. The model records every reply before playing it. No message depends on the histories during playback, and a cancellation mid-turn is not modelled, so nothing observable differs.
- Volume is left out. It is floating point and touches no protocol state.
- Endpoint.CleanupIdempotent: stated for two calls at the same moment. The file cleanup depends on the clock, and a later call may delete files written in between.
- Waveform.StartAnimation: after a cancel the source keeps the stale, non-null handle. The model drops it, because cancelling an already-cancelled frame has no effect.
- Waveform.FadeOutFramesFadeOut: opacity is a double in the source, stepped by `fadeSpeed * 2` = 0.1. The model counts whole steps of 0.05, so the counts are exact only for those steps. The count also assumes no drawing frame of the entity runs in between. After `onended` or `onerror` the entity's own loop still runs, and each round loses only one step; `Waveform.DrawFadeFramesFadeOut` covers that case.
- Waveform.FadeOutEnds: the ⌈o/2⌉ frame count holds for integer steps and for fade-out frames with no drawing frame of the entity between them, as after a stop whose fade follows another entity's start. In that case, from 1.0, ten float subtractions of 0.1 leave a tiny positive remainder, so the source needs an eleventh frame. With the entity's own loop still running, the count is about 19 rounds (`Waveform.FullFadeWhileDrawing`); float rounding can shift that by one.
- Waveform.FullFadeWhileDrawing: counted in whole steps of 0.05; float rounding can shift the count by one round.
- Waveform.DrawFramesFadeIn: opacity is counted in whole steps of 0.05, not as a double.
- Protocol.StartConfig: a setting sent as JSON `null` is modelled like a missing one and gets its default. The source's `dict.get(key, default)` returns `None` for a present null. The page never sends null.
- Client.ServerReadsStartRequest: floating-point sliders are exact reals.
- Conversation.Converse: it states only the refused-start case. The full run is described by `ConversationAlternates`, `StopOnlyTruncates` and `ConversationHistories`.
- TtsHelper.CleanupOldFiles: assumes every `getmtime` and `remove` succeeds. In the source the whole listing loop sits in one `try` (azure_tts_helper.py:221-235), so the first call that raises ends the cleanup and every later expired file stays; a directory named like `azure_x.mp3` is one such case.
- Client.TurnIsAcknowledged: covers a turn that ends with one ending event right after `speaking`. A failing clip fires both `onerror` and the rejection of `play()` and is acknowledged twice (`Client.FailedPlaybackAcknowledgesTwice`). A clip paused by muting is never acknowledged, and events of other turns arriving in between are not covered.
- TtsHelper.RatePercent: the source computes in binary floating point. The model uses exact reals, so a speed whose float product lands just below an integer truncates one unit closer to zero in the source. For example, 1.2 gives 19 in the source and 20 in the model, and 0.9 gives -9 against -10; 0.8, 1.4 and 1.9 differ the same way.

=== FILE: chat_messages.dfy ===
/** Assembly of the chat-completion message list (transformers.py): the
    system message first, then every well-formed history entry, in order,
    reduced to its `role` and `content`. The completion call itself is an
    external service and is not modelled. */
module ChatMessages {

  import opened Common

  /** One chat message as sent to the completion service. Both values are
      Python objects that may be `None`. */
  datatype ChatMessage = ChatMessage(role: Option<string>, content: Option<string>)

  /** One element of the `history` list: a dict (any keys; only `role` and
      `content` are read) or some other Python value. */
  datatype HistoryItem = Dict(fields: map<string, Option<string>>) | NotADict

  function Message(role: string, content: Option<string>): ChatMessage {
    ChatMessage(Some(role), content)
  }

  function SystemMessage(system: string): ChatMessage {
    ChatMessage(Some("system"), Some(system))
  }

  /** The entry is a dict holding both the `role` and the `content` key. */
  predicate WellFormed(item: HistoryItem) {
    item.Dict? && "role" in item.fields && "content" in item.fields
  }

  /** The entry with every key but `role` and `content` dropped. */
  function Project(item: HistoryItem): ChatMessage
    requires WellFormed(item)
  {
    ChatMessage(item.fields["role"], item.fields["content"])
  }

  /** The Python dict `{"role": ..., "content": ...}` for a message. */
  function AsItem(m: ChatMessage): (item: HistoryItem)
    ensures WellFormed(item) && Project(item) == m
  {
    Dict(map["role" := m.role, "content" := m.content])
  }

  /** Reference definition: the well-formed entries of `history`, projected,
      in their original order. */
  function Projection(history: seq<HistoryItem>): seq<ChatMessage>
    decreases |history|
  {
    if history == [] then []
    else (if WellFormed(history[0]) then [Project(history[0])] else [])
         + Projection(history[1..])
  }

  /** How many entries of `history` are well formed. */
  function CountWellFormed(history: seq<HistoryItem>): nat
    decreases |history|
  {
    if history == [] then 0
    else (if WellFormed(history[0]) then 1 else 0) + CountWellFormed(history[1..])
  }

  lemma {:induction false} ProjectionAppend(a: seq<HistoryItem>, b: seq<HistoryItem>)
    ensures Projection(a + b) == Projection(a) + Projection(b)
    ensures CountWellFormed(a + b) == CountWellFormed(a) + CountWellFormed(b)
    decreases |a|
  {
    if a == [] {
      assert a + b == b;
    } else {
      var head := if WellFormed(a[0]) then [Project(a[0])] else [];
      assert (a + b)[0] == a[0];
      assert (a + b)[1..] == a[1..] + b;
      ProjectionAppend(a[1..], b);
      assert head + (Projection(a[1..]) + Projection(b)) == (head + Projection(a[1..])) + Projection(b);
    }
  }

  /** Malformed entries are dropped and nothing else: one message per
      well-formed entry. */
  lemma {:induction false} ProjectionLength(history: seq<HistoryItem>)
    ensures |Projection(history)| == CountWellFormed(history) <= |history|
    decreases |history|
  {
    if history != [] {
      ProjectionLength(history[1..]);
    }
  }

  /** Order is kept: a well-formed entry at index `i` lands at the index
      that counts the well-formed entries before it, so later entries land
      later. */
  lemma ProjectionPosition(history: seq<HistoryItem>, i: nat)
    requires i < |history| && WellFormed(history[i])
    ensures CountWellFormed(history[..i]) < |Projection(history)|
    ensures Projection(history)[CountWellFormed(history[..i])] == Project(history[i])
  {
    assert history == history[..i] + [history[i]] + history[i + 1..];
    ProjectionAppend(history[..i] + [history[i]], history[i + 1..]);
    ProjectionAppend(history[..i], [history[i]]);
    ProjectionLength(history[..i]);
  }

  lemma ProjectionOrder(history: seq<HistoryItem>, i: nat, j: nat)
    requires i < j < |history| && WellFormed(history[i]) && WellFormed(history[j])
    ensures CountWellFormed(history[..i]) < CountWellFormed(history[..j])
  {
    assert history[..j] == history[..i] + [history[i]] + history[i + 1..j];
    ProjectionAppend(history[..i] + [history[i]], history[i + 1..j]);
    ProjectionAppend(history[..i], [history[i]]);
  }

  /** A list of messages as the Python list of dicts that holds them. */
  function AsItems(ms: seq<ChatMessage>): (items: seq<HistoryItem>)
    ensures |items| == |ms|
    ensures forall k :: 0 <= k < |ms| ==> items[k] == AsItem(ms[k])
  {
    if ms == [] then [] else [AsItem(ms[0])] + AsItems(ms[1..])
  }

  /** A history built from messages (as the dialogue server builds it) is
      passed on unchanged. */
  lemma {:induction false} ProjectionOfMessages(ms: seq<ChatMessage>)
    ensures Projection(AsItems(ms)) == ms
    decreases |ms|
  {
    if ms != [] {
      assert AsItems(ms)[1..] == AsItems(ms[1..]);
      ProjectionOfMessages(ms[1..]);
    }
  }

  /** `gpt4o_mini_azure_history`'s loop: the system message, then each
      well-formed history entry in turn. */
  method BuildMessages(system: string, history: seq<HistoryItem>)
    returns (messages: seq<ChatMessage>)
    ensures messages == [SystemMessage(system)] + Projection(history)
    ensures |messages| == 1 + CountWellFormed(history)
  {
    messages := [SystemMessage(system)];
    var i := 0;
    while i < |history|
      invariant 0 <= i <= |history|
      invariant messages == [SystemMessage(system)] + Projection(history[..i])
    {
      var item := history[i];
      assert history[..i + 1] == history[..i] + [item];
      ProjectionAppend(history[..i], [item]);
      if item.Dict? && "role" in item.fields && "content" in item.fields {
        messages := messages + [ChatMessage(item.fields["role"], item.fields["content"])];
      }
      i := i + 1;
    }
    assert history[..i] == history;
    ProjectionLength(history);
  }
}

=== FILE: client.dfy ===
/** The browser side of a dialogue (script.js, class `AIDialogueApp`) as a
    step function from a state and an event to a new state and the
    commands the page issues. Socket callbacks, audio-element callbacks,
    timers and animation frames are events; opening a socket, sending a
    request, starting or pausing audio and arming a timer are commands.
    The DOM is reduced to what the dialogue logic reads back: the
    transcript entries with their `speaking` mark, the shown error, the
    loading overlay and the two waveforms. */
module Client {

  import opened Common
  import opened Text
  import opened Protocol
  import Waveform
  import Conversation

  /** The longest prompt the page accepts, in JavaScript `.length` units. */
  const MaxPromptLength: nat := 375
  /** Above this length the counter turns to a warning. */
  const WarningLength: nat := 300

  const EmptyPromptMessage: string := "Please enter system prompts for both entities."
  const ConnectFailedMessage: string := "Failed to connect to server."
  const SocketErrorMessage: string := "Connection error. Please check your network and try again."
  const UnknownErrorMessage: string := "An unknown error occurred"

  function TooLongMessage(e: Entity): string {
    if e == One then "System prompt for Entity 1 must be 375 characters or less."
    else "System prompt for Entity 2 must be 375 characters or less."
  }

  // ---------------------------------------------------------------------
  // Character counter

  /** The counter of one prompt field: its text and its element's classes. */
  datatype Counter = Counter(text: string, classes: set<string>)

  /** The classes `updateCharacterCount` owns. */
  const CounterFlags: set<string> := {"warning", "error"}

  /** `updateCharacterCount`: show the raw field's `.length`, remove both
      flag classes, then add `warning` above 300 units and `error` from
      375 units. The length is taken before any trimming. */
  function UpdateCounter(classes: set<string>, raw: string): (c: Counter)
    ensures c.text == NatToDecimal(Utf16Length(raw))
    ensures c.classes - CounterFlags == classes - CounterFlags
    ensures "warning" in c.classes <==> Utf16Length(raw) > WarningLength
    ensures "error" in c.classes <==> Utf16Length(raw) >= MaxPromptLength
  {
    var length := Utf16Length(raw);
    var cleared := classes - CounterFlags;
    var warned := if length > WarningLength then cleared + {"warning"} else cleared;
    Counter(NatToDecimal(length), if length >= MaxPromptLength then warned + {"error"} else warned)
  }

  /** The flags are recomputed from scratch: whatever classes the counter
      had before, two fields of equal UTF-16 length end with the same
      flags, and every other class is kept. */
  lemma CounterForgetsPriorFlags(before1: set<string>, before2: set<string>, raw1: string, raw2: string)
    requires Utf16Length(raw1) == Utf16Length(raw2)
    ensures UpdateCounter(before1, raw1).text == UpdateCounter(before2, raw2).text
    ensures UpdateCounter(before1, raw1).classes * CounterFlags == UpdateCounter(before2, raw2).classes * CounterFlags
    ensures before1 == before2 ==> UpdateCounter(before1, raw1) == UpdateCounter(before2, raw2)
  {
  }

  /** Updating twice with the same field text changes nothing more. The
      error class always comes with the warning class, and the longest
      prompt the page accepts already shows the error class. */
  lemma CounterStyles(before: set<string>, raw: string)
    ensures var c := UpdateCounter(before, raw);
      && UpdateCounter(c.classes, raw) == c
      && ("error" in c.classes ==> "warning" in c.classes)
      && (Utf16Length(raw) == MaxPromptLength ==> CounterFlags <= c.classes)
  {
  }

  // ---------------------------------------------------------------------
  // Start-time validation and the start request

  /** The settings form as read when the request is built. Sliders hold
      numbers; the response-length selects hold option values. */
  datatype Form = Form(
    prompt: Pair<string>,
    voice: Pair<string>,
    speed: Pair<real>,
    temperature: Pair<real>,
    topP: Pair<real>,
    responseLength: Pair<string>)

  datatype Validation = Accepted(prompts: Pair<string>) | Refused(message: string)

  /** `startConversation`'s checks, in order: both trimmed prompts are
      non-empty, then the first and the second are at most 375 long. */
  function ValidatePrompts(raw: Pair<string>): (v: Validation)
    ensures v.Accepted? <==>
            && Trim(raw.one, JsWhitespace) != [] && Trim(raw.two, JsWhitespace) != []
            && Utf16Length(Trim(raw.one, JsWhitespace)) <= 375
            && Utf16Length(Trim(raw.two, JsWhitespace)) <= 375
    ensures v.Accepted? ==> v.prompts == Pair(Trim(raw.one, JsWhitespace), Trim(raw.two, JsWhitespace))
    ensures v.Refused? && (AllIn(raw.one, JsWhitespace) || AllIn(raw.two, JsWhitespace))
            ==> v.message == EmptyPromptMessage
  {
    TrimEmptyIff(raw.one, JsWhitespace);
    TrimEmptyIff(raw.two, JsWhitespace);
    var p := Pair(Trim(raw.one, JsWhitespace), Trim(raw.two, JsWhitespace));
    if p.one == [] || p.two == [] then Refused(EmptyPromptMessage)
    else if Utf16Length(p.one) > MaxPromptLength then Refused(TooLongMessage(One))
    else if Utf16Length(p.two) > MaxPromptLength then Refused(TooLongMessage(Two))
    else Accepted(p)
  }

  /** The `responseLengthMap` lookup; any other option value is
      `undefined`, which `JSON.stringify` drops from the request. */
  function ResponseLengthFor(choice: string): Option<int> {
    if choice == "short" then Some(35)
    else if choice == "medium" then Some(60)
    else if choice == "long" then Some(90)
    else None
  }

  /** The `start` request `sendStartMessage` sends. */
  function StartRequest(prompts: Pair<string>, form: Form): ClientMessage {
    Start(StartConfig(
      prompts,
      Pair(Some(form.voice.one), Some(form.voice.two)),
      Pair(Some(form.speed.one), Some(form.speed.two)),
      Pair(Some(form.temperature.one), Some(form.temperature.two)),
      Pair(Some(form.topP.one), Some(form.topP.two)),
      Pair(ResponseLengthFor(form.responseLength.one), ResponseLengthFor(form.responseLength.two))))
  }

  /** What the server makes of the page's request: the prompts the page
      accepted pass the server's own length check (Python's `len` counts
      code points, which never exceeds JavaScript's UTF-16 `.length`); every
      slider and voice is taken as sent, and the response length is the
      mapped word count, or the server's default 35 when the option value
      is unknown. The shortest option equals that default. */
  lemma ServerReadsStartRequest(raw: Pair<string>, form: Form, env: Conversation.Environment, e: Entity)
    requires ValidatePrompts(raw).Accepted?
    ensures var config := StartRequest(ValidatePrompts(raw).prompts, form).config;
            && Conversation.Rejection(config, env).None? == env.credentials
            && var s := Conversation.ResolveSettings(config, e);
            && s.voice == form.voice.Get(e) && s.speed == form.speed.Get(e)
            && s.temperature == form.temperature.Get(e) && s.topP == form.topP.Get(e)
            && s.responseLength == ResponseLengthFor(form.responseLength.Get(e)).GetOr(35)
            && ResponseLengthFor("short") == Some(Conversation.DefaultResponseLength)
  {
    var config := StartRequest(ValidatePrompts(raw).prompts, form).config;
    assert |config.prompt.one| <= Utf16Length(config.prompt.one);
    assert |config.prompt.two| <= Utf16Length(config.prompt.two);
  }

  // ---------------------------------------------------------------------
  // Page state, events and commands

  /** `this.ws` and its `readyState` (CLOSING counts as closed). */
  datatype Socket = NoSocket | Connecting | Open | Closed

  /** One message element of the transcript. */
  datatype Entry = Entry(entity: Entity, text: Option<string>, speaking: bool)

  /** The `Audio` element held in `currentAudio`. */
  datatype Playback = Playback(url: string, entity: Entity)

  datatype Page = Page(
    socket: Socket,
    connected: bool,                // isConnected
    active: bool,                   // conversationActive
    currentAudio: Option<Playback>,
    audioQueue: seq<string>,
    muted: bool,
    transcript: seq<Entry>,
    error: Option<string>,          // the message of the error modal
    loading: bool,                  // the loading overlay
    waves: Waveform.Waves)

  const InitialPage: Page :=
    Page(NoSocket, false, false, None, [], false, [], None, false, Waveform.Initial)

  datatype Event =
    | StartClicked(form: Form)
    | ConnectPoll(prompts: Pair<string>, form: Form)  // `checkConnection` after 100 ms
    | SocketOpened
    | SocketClosed
    | SocketFailed
    | Received(message: ServerMessage)
    | AckTimer                                        // the 2000 ms fallback
    | AudioPlaying(entity: Entity, analysed: bool)    // `onplay`
    | AudioEnded(entity: Entity)                      // `onended`
    | AudioFailed(entity: Entity)                     // `onerror`
    | PlayRejected(entity: Entity)                    // `play()` rejected
    | StopClicked
    | MuteClicked
    | DrawFrame(entity: Entity)
    | FadeFrame(entity: Entity)

  datatype Command =
    | Send(message: ClientMessage)
    | OpenSocket
    | SchedulePoll(prompts: Pair<string>)  // setTimeout(checkConnection, 100)
    | ScheduleAck                          // setTimeout(sendAudioFinishedSignal, 2000)
    | PlayAudio(url: string, entity: Entity)
    | PauseAudio
    | Paint(paint: Waveform.Paint)

  datatype Outcome = Outcome(page: Page, commands: seq<Command>)

  /** The `audio_finished` sends among some commands. */
  function AckCount(commands: seq<Command>): nat {
    if commands == [] then 0
    else (if commands[0] == Send(AudioFinished) then 1 else 0) + AckCount(commands[1..])
  }

  lemma {:induction false} AckCountAppend(a: seq<Command>, b: seq<Command>)
    ensures AckCount(a + b) == AckCount(a) + AckCount(b)
    decreases |a|
  {
    if a == [] {
      assert a + b == b;
    } else {
      assert (a + b)[1..] == a[1..] + b;
      AckCountAppend(a[1..], b);
    }
  }

  function Paints(ps: seq<Waveform.Paint>): (cs: seq<Command>)
    ensures |cs| == |ps| && AckCount(cs) == 0
    ensures forall k :: 0 <= k < |ps| ==> cs[k] == Paint(ps[k])
  {
    if ps == [] then [] else [Paint(ps[0])] + Paints(ps[1..])
  }

  // ---------------------------------------------------------------------
  // Transcript

  /** Index of the last entry of entity `e`, if any. */
  function LastOf(t: seq<Entry>, e: Entity): (r: Option<nat>)
    ensures r.Some? ==> r.value < |t| && t[r.value].entity == e
    ensures r.Some? ==> forall k :: r.value < k < |t| ==> t[k].entity != e
    ensures r.None? ==> forall k :: 0 <= k < |t| ==> t[k].entity != e
    decreases |t|
  {
    if t == [] then None
    else if t[|t| - 1].entity == e then Some(|t| - 1)
    else LastOf(t[..|t| - 1], e)
  }

  /** `markMessageSpeaking`: set or clear the mark on `e`'s last entry and
      touch nothing else. */
  function MarkSpeaking(t: seq<Entry>, e: Entity, speaking: bool): (r: seq<Entry>)
    ensures |r| == |t|
    ensures forall k :: 0 <= k < |t| && LastOf(t, e) != Some(k) ==> r[k] == t[k]
    ensures LastOf(t, e).Some? ==> r[LastOf(t, e).value] == t[LastOf(t, e).value].(speaking := speaking)
  {
    match LastOf(t, e)
    case None => t
    case Some(i) => t[i := t[i].(speaking := speaking)]
  }

  /** Only entries of `e` can change, and of those only the last. */
  lemma MarkSpeakingTouchesOnlyLast(t: seq<Entry>, e: Entity, speaking: bool, k: nat)
    requires k < |t| && (t[k].entity != e || exists j :: k < j < |t| && t[j].entity == e)
    ensures MarkSpeaking(t, e, speaking)[k] == t[k]
  {
  }

  // ---------------------------------------------------------------------
  // The step function

  /** `sendAudioFinishedSignal`: only over an open socket. */
  function AckIfOpen(p: Page): seq<Command> {
    if p.socket == Open then [Send(AudioFinished)] else []
  }

  lemma AckIfOpenCount(p: Page)
    ensures AckCount(AckIfOpen(p)) == (if p.socket == Open then 1 else 0)
  {
    if p.socket == Open {
      assert AckIfOpen(p)[1..] == [];
    }
  }

  /** `sendStartMessage`. */
  function SendStart(p: Page, prompts: Pair<string>, form: Form): Outcome {
    Outcome(p.(active := true, transcript := [], loading := true), [Send(StartRequest(prompts, form))])
  }

  function ClickStart(p: Page, form: Form): Outcome {
    match ValidatePrompts(form.prompt)
    case Refused(message) => Outcome(p.(error := Some(message)), [])
    case Accepted(prompts) =>
      if p.connected then SendStart(p, prompts, form)
      else Outcome(p.(socket := Connecting), [OpenSocket, SchedulePoll(prompts)])
  }

  function Poll(p: Page, prompts: Pair<string>, form: Form): Outcome {
    if p.connected then SendStart(p, prompts, form)
    else if p.socket == Connecting then Outcome(p, [SchedulePoll(prompts)])
    else Outcome(p.(error := Some(ConnectFailedMessage)), [])
  }

  /** JavaScript truthiness of an optional string. */
  predicate Truthy(s: Option<string>) {
    s.Some? && s.value != ""
  }

  function HandleSpeaking(p: Page, e: Entity, audioUrl: Option<string>, text: Option<string>): Outcome {
    var shown := p.(transcript := p.transcript + [Entry(e, text, true)], loading := false);
    if Truthy(audioUrl) && !p.muted then
      Outcome(shown.(currentAudio := Some(Playback(audioUrl.value, e))), [PlayAudio(audioUrl.value, e)])
    else Outcome(shown, [ScheduleAck])
  }

  /** Pause and drop the current audio, empty the queue, fade both
      waveforms out and deactivate: the cleanup `stopConversation` and
      `handleStopped` share. */
  function Halt(p: Page): (o: Outcome)
    ensures Waveform.Valid(p.waves) ==> Waveform.Valid(o.page.waves)
  {
    var one := Waveform.StopAnimation(p.waves, One);
    var two := Waveform.StopAnimation(one.waves, Two);
    Outcome(
      p.(currentAudio := None, audioQueue := [], waves := two.waves, active := false, loading := false),
      (if p.currentAudio.Some? then [PauseAudio] else []) + Paints(one.paint + two.paint))
  }

  function HandleError(p: Page, message: Option<string>): Outcome {
    Outcome(p.(error := Some(if Truthy(message) then message.value else UnknownErrorMessage),
               active := false, loading := false), [])
  }

  /** `handleWebSocketMessage`. */
  function Handle(p: Page, m: ServerMessage): Outcome {
    match m
    case Speaking(e, audioUrl, text) => HandleSpeaking(p, e, audioUrl, text)
    case FinishedSpeaking => Outcome(p.(loading := false), [])
    case Stopped => Halt(p)
    case Error(message) => HandleError(p, message)
    case OtherReply(_) => Outcome(p, [])
  }

  /** `onended`, `onerror` and a rejected `play()`: acknowledge, and fade
      out `e`'s waveform; the first two also drop the current audio and
      only the first clears the speaking mark. */
  function PlaybackOver(p: Page, e: Entity, ended: bool, dropAudio: bool): (o: Outcome)
    ensures Waveform.Valid(p.waves) ==> Waveform.Valid(o.page.waves)
  {
    var fade := Waveform.StopAnimation(p.waves, e);
    Outcome(
      p.(transcript := if ended then MarkSpeaking(p.transcript, e, false) else p.transcript,
         currentAudio := if dropAudio then None else p.currentAudio,
         waves := fade.waves),
      AckIfOpen(p) + Paints(fade.paint))
  }

  function Step(p: Page, ev: Event): Outcome {
    match ev
    case StartClicked(form) => ClickStart(p, form)
    case ConnectPoll(prompts, form) => Poll(p, prompts, form)
    case SocketOpened => Outcome(p.(socket := Open, connected := true), [])
    case SocketClosed => Outcome(p.(socket := Closed, connected := false, active := false), [])
    case SocketFailed => Outcome(p.(error := Some(SocketErrorMessage)), [])
    case Received(m) =>
      // `ws.onmessage`: an inactive page only listens for `stopped`.
      if !p.active && !m.Stopped? then Outcome(p, []) else Handle(p, m)
    case AckTimer => Outcome(p, AckIfOpen(p))
    case AudioPlaying(e, analysed) =>
      var marked := p.(transcript := MarkSpeaking(p.transcript, e, true));
      if analysed then
        var w := Waveform.StartAnimation(p.waves, e, true);
        Outcome(marked.(waves := w.waves), Paints(w.paint))
      else Outcome(marked, [])
    case AudioEnded(e) => PlaybackOver(p, e, true, true)
    case AudioFailed(e) => PlaybackOver(p, e, false, true)
    case PlayRejected(e) => PlaybackOver(p, e, false, false)
    case StopClicked =>
      var h := Halt(p);
      Outcome(h.page, (if p.socket == Open then [Send(Stop)] else []) + h.commands)
    case MuteClicked =>
      Outcome(p.(muted := !p.muted),
              if !p.muted && p.currentAudio.Some? then [PauseAudio] else [])
    case DrawFrame(e) =>
      var w := Waveform.DrawFrame(p.waves, e);
      Outcome(p.(waves := w.waves), Paints(w.paint))
    case FadeFrame(e) =>
      var w := Waveform.FadeOutFrame(p.waves, e);
      Outcome(p.(waves := w.waves), Paints(w.paint))
  }

  // ---------------------------------------------------------------------
  // Properties

  /** Every step keeps both waveform opacities within [0, 1]. */
  lemma StepKeepsOpacity(p: Page, ev: Event)
    requires Waveform.Valid(p.waves)
    ensures Waveform.Valid(Step(p, ev).page.waves)
  {
    match ev
    case Received(m) =>
      assert Step(p, ev).page.waves == p.waves || Step(p, ev).page.waves == Halt(p).page.waves;
    case StopClicked =>
      assert Step(p, ev).page.waves == Halt(p).page.waves;
    case AudioPlaying(e, analysed) =>
    case AudioEnded(e) =>
    case AudioFailed(e) =>
    case PlayRejected(e) =>
    case DrawFrame(e) =>
    case FadeFrame(e) =>
    case _ =>
      assert Step(p, ev).page.waves == p.waves;
  }

  /** A refused start sends nothing, opens nothing and leaves the dialogue
      state alone; it only shows the reason. Exactly 375 units is still
      accepted. */
  lemma RefusedStartDoesNothing(p: Page, form: Form)
    requires ValidatePrompts(form.prompt).Refused?
    ensures var o := Step(p, StartClicked(form));
            && o.commands == []
            && o.page == p.(error := Some(ValidatePrompts(form.prompt).message))
            && o.page.active == p.active
  {
  }

  lemma LimitIsInclusive(raw: Pair<string>)
    requires Trim(raw.one, JsWhitespace) != [] && Trim(raw.two, JsWhitespace) != []
    requires Utf16Length(Trim(raw.one, JsWhitespace)) == 375
    requires Utf16Length(Trim(raw.two, JsWhitespace)) == 375
    ensures ValidatePrompts(raw).Accepted?
  {
  }

  /** An accepted start on a connected page sends exactly one `start`
      request with the trimmed prompts and the mapped response lengths,
      activates the dialogue and clears the transcript; on a page that is
      not connected it opens a socket and polls, sending nothing yet. */
  lemma AcceptedStartSendsRequest(p: Page, form: Form)
    requires ValidatePrompts(form.prompt).Accepted?
    ensures var o := Step(p, StartClicked(form));
            var prompts := Pair(Trim(form.prompt.one, JsWhitespace), Trim(form.prompt.two, JsWhitespace));
            && (p.connected ==>
                  && o.commands == [Send(StartRequest(prompts, form))]
                  && o.page.active && o.page.transcript == []
                  && o.commands[0].message.config.prompt == prompts
                  && o.commands[0].message.config.responseLength.one == ResponseLengthFor(form.responseLength.one)
                  && o.commands[0].message.config.responseLength.two == ResponseLengthFor(form.responseLength.two))
            && (!p.connected ==>
                  o.commands == [OpenSocket, SchedulePoll(prompts)] && o.page.active == p.active)
  {
  }

  /** While inactive, every inbound message but `stopped` is dropped, and
      an unknown message type changes nothing even while active. */
  lemma InboundFilter(p: Page, m: ServerMessage)
    ensures (!p.active && !m.Stopped?) || m.OtherReply? ==> Step(p, Received(m)) == Outcome(p, [])
    ensures m.Stopped? ==> Step(p, Received(m)) == Halt(p)
  {
  }

  /** `speaking` appends exactly one transcript entry, marked speaking. It
      starts playback exactly when the URL is truthy and the page is not
      muted; otherwise it arms the 2-second fallback. */
  lemma SpeakingAppendsOne(p: Page, e: Entity, audioUrl: Option<string>, text: Option<string>)
    requires p.active
    ensures var o := Step(p, Received(Speaking(e, audioUrl, text)));
            && o.page.transcript == p.transcript + [Entry(e, text, true)]
            && (Truthy(audioUrl) && !p.muted ==> o.commands == [PlayAudio(audioUrl.value, e)])
            && (!(Truthy(audioUrl) && !p.muted) ==> o.commands == [ScheduleAck])
            && AckCount(o.commands) == 0
  {
  }

  /** Every way a turn's playback can end acknowledges it once over an
      open socket and not at all otherwise; `onended` and `onerror` drop the
      current audio, and the waveform of that entity starts fading out. */
  lemma PlaybackEndAcknowledges(p: Page, ev: Event)
    requires ev.AckTimer? || ev.AudioEnded? || ev.AudioFailed? || ev.PlayRejected?
    ensures var o := Step(p, ev);
            && AckCount(o.commands) == (if p.socket == Open then 1 else 0)
            && (ev.AudioEnded? || ev.AudioFailed? ==> o.page.currentAudio.None?)
            && (!ev.AudioEnded? ==> o.page.transcript == p.transcript)
            && (ev.AudioEnded? ==> o.page.transcript == MarkSpeaking(p.transcript, ev.entity, false))
            && (!ev.AckTimer? ==> o.page.waves == Waveform.StopAnimation(p.waves, ev.entity).waves)
  {
    AckIfOpenCount(p);
    if !ev.AckTimer? {
      AckCountAppend(AckIfOpen(p), Paints(Waveform.StopAnimation(p.waves, ev.entity).paint));
    }
  }

  /** A turn whose playback ends with a single ending event right after
      its `speaking` is acknowledged once over an open socket: the
      fallback timer when nothing plays, otherwise the end or the failure
      of the audio, or the rejection of `play()`. A failing clip can fire
      two ending events (`FailedPlaybackAcknowledgesTwice`), and a clip
      paused by muting fires none. */
  lemma TurnIsAcknowledged(p: Page, e: Entity, audioUrl: Option<string>, text: Option<string>, ending: Event)
    requires p.active && p.socket == Open
    requires ending.AckTimer? || ending.AudioEnded? || ending.AudioFailed? || ending.PlayRejected?
    requires var o := Step(p, Received(Speaking(e, audioUrl, text)));
             o.commands == [ScheduleAck] <==> ending.AckTimer?
    ensures var o := Step(p, Received(Speaking(e, audioUrl, text)));
            AckCount(o.commands + Step(o.page, ending).commands) == 1
  {
    var o := Step(p, Received(Speaking(e, audioUrl, text)));
    SpeakingAppendsOne(p, e, audioUrl, text);
    PlaybackEndAcknowledges(o.page, ending);
    AckCountAppend(o.commands, Step(o.page, ending).commands);
  }

  /** Acknowledgement is not exactly once: when playback fails, both
      `onerror` and the rejection of `play()` acknowledge, so the server can
      receive two `audio_finished` for one turn. */
  lemma FailedPlaybackAcknowledgesTwice(p: Page, e: Entity)
    requires p.socket == Open
    ensures var o1 := Step(p, AudioFailed(e));
            var o2 := Step(o1.page, PlayRejected(e));
            AckCount(o1.commands + o2.commands) == 2
  {
    var o1 := Step(p, AudioFailed(e));
    var o2 := Step(o1.page, PlayRejected(e));
    PlaybackEndAcknowledges(p, AudioFailed(e));
    PlaybackEndAcknowledges(o1.page, PlayRejected(e));
    AckCountAppend(o1.commands, o2.commands);
  }

  /** Both ways a dialogue ends on the page leave no audio, an empty queue
      and an inactive page; only the user's stop sends `stop`, and only
      over an open socket. */
  lemma StopAndStoppedClean(p: Page)
    ensures var s := Step(p, StopClicked).page;
            s.currentAudio.None? && s.audioQueue == [] && !s.active
    ensures var s := Step(p, Received(Stopped)).page;
            s.currentAudio.None? && s.audioQueue == [] && !s.active
    ensures Send(Stop) in Step(p, StopClicked).commands <==> p.socket == Open
    ensures Send(Stop) !in Step(p, Received(Stopped)).commands
  {
    var h := Halt(p);
    var one := Waveform.StopAnimation(p.waves, One);
    var two := Waveform.StopAnimation(one.waves, Two);
    assert forall c :: c in Paints(one.paint + two.paint) ==> c.Paint?;
  }

  /** `error` deactivates the page and shows the server's message, or the
      fallback when it is missing or empty. */
  lemma ErrorDeactivates(p: Page, message: Option<string>)
    requires p.active
    ensures var o := Step(p, Received(Error(message)));
            && !o.page.active && o.commands == []
            && o.page.error == Some(if message.Some? && message.value != "" then message.value
                                    else "An unknown error occurred")
  {
  }

  /** Muting pauses the current audio without dropping it or
      acknowledging; muting twice restores the flag. */
  lemma MuteToggles(p: Page)
    ensures Step(Step(p, MuteClicked).page, MuteClicked).page == p
    ensures var o := Step(p, MuteClicked);
            && o.page.muted != p.muted && o.page.currentAudio == p.currentAudio
            && (o.commands == [PauseAudio] <==> o.page.muted && p.currentAudio.Some?)
  {
  }
}

=== FILE: common.dfy ===
/** Shared vocabulary of the dialogue model: optional values, the two
    entities that take turns, and a two-element collection indexed by entity
    (the source's duplicated `...1`/`...2` fields). */
module Common {

  /** Python `None` / JavaScript `null`-or-missing, or a present value. */
  datatype Option<+T> = None | Some(value: T) {

    function GetOr(default: T): T {
      match this
      case Some(v) => v
      case None => default
    }
  }

  /** The two speaking parties, numbered 1 and 2 on the wire. */
  datatype Entity = One | Two {

    function Other(): Entity {
      if One? then Two else One
    }

    function Number(): int {
      if One? then 1 else 2
    }
  }

  /** The entity that speaks in turn `t` (turns are numbered from 0):
      entity 1 opens, then the two alternate. */
  function SpeakerOf(t: nat): Entity {
    if t % 2 == 0 then One else Two
  }

  /** One value per entity. */
  datatype Pair<T> = Pair(one: T, two: T) {

    function Get(e: Entity): T {
      match e
      case One => one
      case Two => two
    }

    function Set(e: Entity, v: T): (r: Pair<T>)
      ensures r.Get(e) == v
      ensures r.Get(e.Other()) == Get(e.Other())
    {
      match e
      case One => Pair(v, two)
      case Two => Pair(one, v)
    }
  }
}

=== FILE: conversation.dfy ===
/** The server side of one dialogue (app.py, `run_conversation` and its
    inner `safe_send` and `play_audio_and_cleanup`): prompt validation,
    defaulting of the start settings, composition of the two system
    prompts, and the turn loop in which the two entities speak in strict
    alternation while each keeps its own chat history.

    The completion service and the speech service are external: what they
    return for each turn is an input (`TurnInput`). A run ends early only
    when the connection's handler cancels its task (on `start`, `stop` or
    a disconnect); the `CancelledError` is raised at the await where the
    cancellation lands, and nothing is sent after it. That point is an
    input too (`StopTime`), and the model ends the run there through the
    run's own stop-flag checks, which gives the same messages. In the
    program those checks never fire during a run, because every writer of
    the flag cancels and awaits the task first. Turn `t` is spoken by
    `SpeakerOf(t)`: turn 0 is the seed, turn 1 the first reply, turns 2..21
    the ten rounds of the main loop. */
module Conversation {

  import opened Common
  import opened Text
  import opened Protocol
  import opened ChatMessages
  import TtsHelper

  const PromptLimit: nat := 375
  const MaxRounds: nat := 10
  const MaxTurns: nat := 2 + 2 * MaxRounds

  const DefaultVoice: Pair<string> := Pair("Brian", "Ava")
  const DefaultSpeed: real := 1.0
  const DefaultTemperature: real := 0.7
  const DefaultTopP: real := 1.0
  const DefaultResponseLength: int := 35

  /** One entity's settings once every missing field has its default. */
  datatype Settings = Settings(voice: string, speed: real, temperature: real,
                               topP: real, responseLength: int)

  /** `config.get(key, default)` for every setting of entity `e`. */
  function ResolveSettings(config: StartConfig, e: Entity): (s: Settings)
    ensures config.voice.Get(e).Some? ==> s.voice == config.voice.Get(e).value
    ensures config.voice.Get(e).None? ==> s.voice == (if e == One then "Brian" else "Ava")
    ensures config.speed.Get(e).Some? ==> s.speed == config.speed.Get(e).value
    ensures config.speed.Get(e).None? ==> s.speed == 1.0
    ensures config.temperature.Get(e).Some? ==> s.temperature == config.temperature.Get(e).value
    ensures config.temperature.Get(e).None? ==> s.temperature == 0.7
    ensures config.topP.Get(e).Some? ==> s.topP == config.topP.Get(e).value
    ensures config.topP.Get(e).None? ==> s.topP == 1.0
    ensures config.responseLength.Get(e).Some? ==> s.responseLength == config.responseLength.Get(e).value
    ensures config.responseLength.Get(e).None? ==> s.responseLength == 35
  {
    Settings(
      config.voice.Get(e).GetOr(DefaultVoice.Get(e)),
      config.speed.Get(e).GetOr(DefaultSpeed),
      config.temperature.Get(e).GetOr(DefaultTemperature),
      config.topP.Get(e).GetOr(DefaultTopP),
      config.responseLength.Get(e).GetOr(DefaultResponseLength))
  }

  /** The conversation-style instructions appended to both prompts. */
  const Instructions: string :=
    "\n\nCONVERSATION STYLE:\n"
    + "- Engage naturally like a real human in casual conversation\n"
    + "- React emotionally and personally to what the other person says\n"
    + "- Use conversational flow: ask questions, make observations, share thoughts\n"
    + "- Show curiosity, agreement, disagreement, surprise, or other natural reactions\n"
    + "- Build on previous points rather than just stating new arguments\n"
    + "- Use \"I think...\", \"That's interesting...\", \"Wait, but...\", \"You know what...\" etc.\n"
    + "- Include conversational fillers and natural speech patterns\n"
    + "- Show personality and individual perspective\n"
    + "- Sometimes go off on tangents or bring up related points\n"
    + "- React to the other person's tone and adjust accordingly\n"
    + "\n"
    + "AVOID:\n"
    + "- Formal debate structure or academic presentations  \n"
    + "- Simply stating facts without personal reaction\n"
    + "- Ignoring what the other person just said\n"
    + "- Being overly polite or robotic\n"
    + "- Starting every response the same way"

  const LimitPrefix: string := "\n\nKeep your responses to "
  const LimitSuffix: string := " words maximum."

  /** A prompt, then instructions, then the word-limit sentence. */
  function WithWordLimit(prompt: string, instructions: string, words: int): (r: string)
    ensures StartsWith(r, prompt)
    ensures |prompt| + |instructions| <= |r| && r[|prompt|..|prompt| + |instructions|] == instructions
    ensures EndsWith(r, LimitPrefix + IntToString(words) + LimitSuffix)
  {
    var tail := LimitPrefix + IntToString(words) + LimitSuffix;
    assert (prompt + instructions + tail)[..|prompt|] == prompt;
    assert (prompt + instructions + tail)[|prompt|..|prompt| + |instructions|] == instructions;
    prompt + instructions + tail
  }

  /** The user's prompt, then the shared instructions, then the word-limit
      sentence for that entity's own response length. */
  function ComposeSystemPrompt(prompt: string, words: int): string {
    WithWordLimit(prompt, Instructions, words)
  }

  /** Reads the word limit back out of a prompt composed with the given
      instructions. */
  function WordLimitOf(composed: string, prompt: string, instructions: string): Option<int> {
    var head := |prompt| + |instructions| + |LimitPrefix|;
    if head + |LimitSuffix| <= |composed|
       && composed[..head] == prompt + instructions + LimitPrefix
       && composed[|composed| - |LimitSuffix|..] == LimitSuffix
    then ParseInt(composed[head..|composed| - |LimitSuffix|])
    else None
  }

  /** The word limit an entity is told is exactly its response length. */
  lemma WordLimitRoundTrip(prompt: string, instructions: string, words: int)
    ensures WordLimitOf(WithWordLimit(prompt, instructions, words), prompt, instructions) == Some(words)
  {
    var c := WithWordLimit(prompt, instructions, words);
    var head := |prompt| + |instructions| + |LimitPrefix|;
    var digits := IntToString(words);
    assert c == (prompt + instructions + LimitPrefix) + digits + LimitSuffix;
    assert c[..head] == prompt + instructions + LimitPrefix;
    assert c[head..|c| - |LimitSuffix|] == digits;
    assert c[|c| - |LimitSuffix|..] == LimitSuffix;
    IntToStringRoundTrip(words);
  }

  /** The settings and composed system prompts of both entities. */
  datatype Composed = Composed(settings: Pair<Settings>, systemPrompt: Pair<string>)

  function Compose(config: StartConfig): Composed {
    var s := Pair(ResolveSettings(config, One), ResolveSettings(config, Two));
    Composed(s, Pair(ComposeSystemPrompt(config.prompt.one, s.one.responseLength),
                     ComposeSystemPrompt(config.prompt.two, s.two.responseLength)))
  }

  /** Each entity runs with its own resolved settings, and its system
      prompt is its own prompt, then the instructions, then a word limit
      that reads back as its own response length. */
  lemma ComposeStatesWordLimit(config: StartConfig, e: Entity)
    ensures var c := Compose(config);
      && c.settings.Get(e) == ResolveSettings(config, e)
      && StartsWith(c.systemPrompt.Get(e), config.prompt.Get(e))
      && WordLimitOf(c.systemPrompt.Get(e), config.prompt.Get(e), Instructions)
         == Some(ResolveSettings(config, e).responseLength)
  {
    WordLimitRoundTrip(config.prompt.Get(e), Instructions, ResolveSettings(config, e).responseLength);
  }

  /** What the completion service gives for one turn: the reply content
      (which may be `None`), or an exception with its text. */
  datatype LlmReply = Reply(content: Option<string>) | LlmFailure(message: string)

  /** The external results of one turn: the completion, whether the speech
      service completed its synthesis, and the clock when the file was named. */
  datatype TurnInput = TurnInput(reply: LlmReply, synthesized: bool, timestampMs: nat)

  /** Everything outside the server's own logic: whether the completion
      credentials are configured, one input per possible turn, and the
      speech helper's audio directory. */
  datatype Environment = Environment(credentials: bool, turns: seq<TurnInput>, audioDir: string)

  /** Where the cancellation of the run's task lands: never, or while the
      run is suspended at its `n`-th await. From then on the model reads
      the stop flag (`active_conversations[id]["stop"]`) as set, which
      ends the run at the same point as the `CancelledError` does. */
  datatype StopTime = Never | AfterAwait(n: nat)

  /** One call of the completion service: the speaker's system prompt and
      the history it is prompted with. */
  datatype LlmCall = LlmCall(system: string, history: seq<ChatMessage>)

  /** The message list `gpt4o_mini_azure_history` builds for a call. */
  function Messages(call: LlmCall): seq<ChatMessage> {
    [SystemMessage(call.system)] + Projection(AsItems(call.history))
  }

  /** A history the server built is passed on whole, after the system
      message. */
  lemma MessagesOfCall(call: LlmCall)
    ensures Messages(call) == [SystemMessage(call.system)] + call.history
  {
    ProjectionOfMessages(call.history);
  }

  /** The observable progress of a run: how many awaits it passed, what it
      sent, both histories, every message list handed to the completion
      service, how many turns got a completion, and whether a completion
      raised. */
  datatype Run = Run(
    awaits: nat,
    sent: seq<ServerMessage>,
    histories: Pair<seq<ChatMessage>>,
    requests: seq<LlmCall>,
    turnsTaken: nat,
    failed: bool)

  const Fresh: Run := Run(0, [], Pair([], []), [], 0, false)

  predicate StopSet(r: Run, stop: StopTime) {
    stop.AfterAwait? && r.awaits > stop.n
  }

  /** `r'` is `r` after more work: later, with more messages appended and
      nothing else touched. */
  predicate SendsMore(r: Run, r': Run) {
    && r.awaits <= r'.awaits
    && r.sent <= r'.sent
    && r'.histories == r.histories && r'.requests == r.requests
    && r'.turnsTaken == r.turnsTaken
  }

  /** `safe_send`: the message goes out only while the stop flag is clear. */
  function SafeSend(r: Run, m: ServerMessage, stop: StopTime): (r': Run)
    ensures StopSet(r, stop) ==> r' == r
    ensures !StopSet(r, stop) ==> r'.sent == r.sent + [m] && r'.awaits == r.awaits + 1
    ensures SendsMore(r, r') && r'.failed == r.failed
  {
    if StopSet(r, stop) then r else r.(sent := r.sent + [m], awaits := r.awaits + 1)
  }

  function AudioUrl(file: Option<string>): Option<string> {
    match file
    case Some(path) => Some("/audio/" + TtsHelper.Basename(path))
    case None => None
  }

  /** The file the speech helper writes for a turn's text; `None` text
      makes the helper fail, which it reports as no file. */
  function Synthesize(text: Option<string>, s: Settings, input: TurnInput, audioDir: string): Option<string> {
    match text
    case Some(t) =>
      TtsHelper.GenerateAudioFile(t, s.voice, input.timestampMs, audioDir, input.synthesized)
    case None => None
  }

  function ReplyContent(input: TurnInput): Option<string> {
    if input.reply.Reply? then input.reply.content else None
  }

  /** The audio URL of every turn. Synthesis depends only on the turn's
      reply, settings and external results, and affects the messages only
      through this URL, so it is computed ahead of the run. */
  function AudioUrls(c: Composed, env: Environment): (urls: seq<Option<string>>)
    ensures |urls| == |env.turns|
  {
    seq(|env.turns|, t requires 0 <= t < |env.turns| =>
      AudioUrl(Synthesize(ReplyContent(env.turns[t]), c.settings.Get(SpeakerOf(t)), env.turns[t], env.audioDir)))
  }

  /** The part of `play_audio_and_cleanup` after synthesis: `speaking`,
      the wait for the client when there is audio, `finished_speaking`
      unless stopped meanwhile, and the closing sleep. */
  function Announce(r: Run, e: Entity, text: Option<string>, url: Option<string>, stop: StopTime): (r': Run)
    requires !StopSet(r, stop)
    ensures SendsMore(r, r') && r'.failed == r.failed && r'.awaits > r.awaits
    ensures r'.sent == r.sent + [Speaking(e, url, text)]
         || r'.sent == r.sent + [Speaking(e, url, text), FinishedSpeaking]
  {
    var r2 := SafeSend(r, Speaking(e, url, text), stop);
    var r3 := if url.Some? then r2.(awaits := r2.awaits + 1) else r2;
    var r4 := if !StopSet(r3, stop) then SafeSend(r3, FinishedSpeaking, stop) else r3;
    r4.(awaits := r4.awaits + 1)
  }

  /** `play_audio_and_cleanup`: synthesise the text, announce it with a
      `speaking` message, wait for the client's acknowledgement when there
      is audio, then send `finished_speaking`. Stop checks come before and
      after synthesis and before `finished_speaking`. */
  function PlayAudio(r: Run, text: Option<string>, e: Entity, url: Option<string>, stop: StopTime): (r': Run)
    ensures SendsMore(r, r') && r'.failed == r.failed
    ensures StopSet(r, stop) ==> r' == r
  {
    if StopSet(r, stop) then r
    else
      var r1 := r.(awaits := r.awaits + 1);
      if StopSet(r1, stop) then r1
      else Announce(r1, e, text, url, stop)
  }

  /** A reply changes the histories only when Python finds it truthy. */
  predicate Truthy(c: Option<string>) {
    c.Some? && c.value != ""
  }

  /** The histories after turn `t` by `e` produced `c`. The seed (turn 0)
      starts entity 2's history with it and leaves entity 1's empty; later
      truthy replies become a `user` entry for the listener and an
      `assistant` entry for the speaker. */
  function Record(h: Pair<seq<ChatMessage>>, t: nat, e: Entity, c: Option<string>): Pair<seq<ChatMessage>> {
    if t == 0 then Pair([], [Message("user", c)])
    else if Truthy(c) then
      h.Set(e.Other(), h.Get(e.Other()) + [Message("user", c)])
       .Set(e, h.Get(e) + [Message("assistant", c)])
    else h
  }

  function SeedRequest(system: string): string {
    "Make a first response based on your system prompt: " + system
  }

  /** The history the speaker of turn `t` is prompted with. */
  function PromptHistory(r: Run, t: nat, c: Composed): seq<ChatMessage> {
    if t == 0 then [Message("user", Some(SeedRequest(c.systemPrompt.one)))]
    else r.histories.Get(SpeakerOf(t))
  }

  /** The call made for turn `t`. */
  function Request(r: Run, t: nat, c: Composed): LlmCall {
    LlmCall(c.systemPrompt.Get(SpeakerOf(t)), PromptHistory(r, t, c))
  }

  /** The run after turn `t`'s call is recorded. */
  function Asked(r: Run, t: nat, c: Composed): Run {
    r.(requests := r.requests + [Request(r, t, c)])
  }

  /** One turn: ask the completion service (the message list is recorded),
      update the histories, then play. A raised completion sends an
      `error` and ends the run. */
  function TakeTurn(r: Run, t: nat, c: Composed, env: Environment, urls: seq<Option<string>>, stop: StopTime): (r': Run)
    requires t < |env.turns| == |urls|
    ensures r'.awaits >= r.awaits
    ensures r.sent <= r'.sent
  {
    var e := SpeakerOf(t);
    var r0 := Asked(r, t, c);
    match env.turns[t].reply
    case LlmFailure(message) => SafeSend(r0, Error(Some(message)), stop).(failed := true)
    case Reply(content) =>
      var r1 := r0.(histories := Record(r0.histories, t, e, content), turnsTaken := r0.turnsTaken + 1);
      PlayAudio(r1, content, e, urls[t], stop)
  }

  /** Turns `t`, `t + 1`, ... up to `MaxTurns`; before every turn but the
      first the stop flag is checked. */
  function RunTurns(r: Run, t: nat, c: Composed, env: Environment, urls: seq<Option<string>>, stop: StopTime): Run
    requires |env.turns| == |urls| == MaxTurns && t <= MaxTurns
    decreases MaxTurns - t
  {
    if t == MaxTurns || r.failed || (t > 0 && StopSet(r, stop)) then r
    else RunTurns(TakeTurn(r, t, c, env, urls, stop), t + 1, c, env, urls, stop)
  }

  function TooLongMessage(e: Entity): string {
    if e == One then "System prompt 1 exceeds 375 character limit"
    else "System prompt 2 exceeds 375 character limit"
  }

  /** Why `run_conversation` refuses to start, checked in this order: a
      prompt over the limit, then missing completion credentials. */
  function Rejection(config: StartConfig, env: Environment): Option<string> {
    if |config.prompt.one| > PromptLimit then Some(TooLongMessage(One))
    else if |config.prompt.two| > PromptLimit then Some(TooLongMessage(Two))
    else if !env.credentials then Some("Azure OpenAI credentials not found")
    else None
  }

  /** `run_conversation` once the settings are composed into `c`. */
  function Converse(config: StartConfig, c: Composed, env: Environment, stop: StopTime): (r: Run)
    requires |env.turns| == MaxTurns
    ensures Rejection(config, env).Some? ==> r.sent == [Error(Rejection(config, env))]
  {
    match Rejection(config, env)
    case Some(reason) => SafeSend(Fresh, Error(Some(reason)), stop)
    case None => RunTurns(Fresh, 0, c, env, AudioUrls(c, env), stop)
  }

  /** `run_conversation` for one `start` request. */
  function RunConversation(config: StartConfig, env: Environment, stop: StopTime): Run
    requires |env.turns| == MaxTurns
  {
    Converse(config, Compose(config), env, stop)
  }

  /** A refused start sends exactly one `error` naming the first problem
      found, and starts no turn. */
  lemma RejectedStart(config: StartConfig, c: Composed, env: Environment, stop: StopTime)
    requires |env.turns| == MaxTurns
    ensures var r := Converse(config, c, env, stop);
      && (|config.prompt.one| > PromptLimit ==> r.sent == [Error(Some(TooLongMessage(One)))])
      && (|config.prompt.one| <= PromptLimit < |config.prompt.two|
          ==> r.sent == [Error(Some(TooLongMessage(Two)))])
      && (|config.prompt.one| <= PromptLimit && |config.prompt.two| <= PromptLimit && !env.credentials
          ==> r.sent == [Error(Some("Azure OpenAI credentials not found"))])
      && (Rejection(config, env).Some? ==> r.turnsTaken == 0 && r.requests == [])
  {
  }

  // ---------------------------------------------------------------------
  // Turn-taking: strict alternation, bounded number of turns

  /** Speaker `i` of a transcript is the speaker of turn `i`. */
  predicate Alternating(sp: seq<Entity>) {
    forall i :: 0 <= i < |sp| ==> sp[i] == SpeakerOf(i)
  }

  predicate AllReplies(turns: seq<TurnInput>) {
    forall i :: 0 <= i < |turns| ==> turns[i].reply.Reply?
  }

  lemma AnnounceSpeakers(r: Run, e: Entity, text: Option<string>, url: Option<string>, stop: StopTime)
    requires !StopSet(r, stop)
    ensures Speakers(Announce(r, e, text, url, stop).sent) == Speakers(r.sent) + [e]
  {
    var s := Speaking(e, url, text);
    var a := Announce(r, e, text, url, stop);
    SpeakersAppend(r.sent, s);
    if a.sent != r.sent + [s] {
      assert a.sent == r.sent + [s] + [FinishedSpeaking];
      SpeakersAppend(r.sent + [s], FinishedSpeaking);
    }
  }

  /** The stop flag is still clear after the first suspension of a play,
      so its `speaking` message goes out. */
  predicate Speaks(r: Run, stop: StopTime) {
    !StopSet(r.(awaits := r.awaits + 1), stop)
  }

  /** A play announces its speaker exactly when the stop has not arrived by
      its first suspension; a play that did not announce ends stopped. */
  lemma PlayAudioSpeakers(r: Run, text: Option<string>, e: Entity, url: Option<string>, stop: StopTime)
    ensures Speaks(r, stop) ==> Speakers(PlayAudio(r, text, e, url, stop).sent) == Speakers(r.sent) + [e]
    ensures !Speaks(r, stop) ==> PlayAudio(r, text, e, url, stop).sent == r.sent
    ensures !Speaks(r, stop) ==> StopSet(PlayAudio(r, text, e, url, stop), stop)
  {
    var r1 := r.(awaits := r.awaits + 1);
    if Speaks(r, stop) {
      assert PlayAudio(r, text, e, url, stop) == Announce(r1, e, text, url, stop);
      AnnounceSpeakers(r1, e, text, url, stop);
    }
  }

  lemma TakeTurnSpeakers(r: Run, t: nat, c: Composed, env: Environment, urls: seq<Option<string>>, stop: StopTime)
    requires t < |env.turns| == |urls|
    ensures var r' := TakeTurn(r, t, c, env, urls, stop);
      && (Speakers(r'.sent) == Speakers(r.sent) || Speakers(r'.sent) == Speakers(r.sent) + [SpeakerOf(t)])
      && (!StopSet(r', stop) && !r'.failed ==> Speakers(r'.sent) == Speakers(r.sent) + [SpeakerOf(t)])
      && (env.turns[t].reply.Reply? ==> r'.failed == r.failed)
  {
    var e := SpeakerOf(t);
    var r0 := Asked(r, t, c);
    var r' := TakeTurn(r, t, c, env, urls, stop);
    match env.turns[t].reply
    case LlmFailure(message) =>
      assert r' == SafeSend(r0, Error(Some(message)), stop).(failed := true);
      SpeakersAppend(r0.sent, Error(Some(message)));
    case Reply(content) =>
      var r1 := r0.(histories := Record(r0.histories, t, e, content), turnsTaken := r0.turnsTaken + 1);
      assert r' == PlayAudio(r1, content, e, urls[t], stop);
      PlayAudioSpeakers(r1, content, e, urls[t], stop);
  }

  /** What holds of a run before turn `t`: the speakers so far alternate,
      there is at most one per turn, exactly one per turn while neither the
      stop nor a failure intervened, and with every completion succeeding
      (`full`) nothing failed. */
  predicate TurnInvariant(r: Run, t: nat, stop: StopTime, full: bool) {
    var sp := Speakers(r.sent);
    && Alternating(sp) && |sp| <= t
    && (!StopSet(r, stop) && !r.failed ==> |sp| == t)
    && (full ==> !r.failed)
  }

  lemma TakeTurnKeepsInvariant(r: Run, t: nat, c: Composed, env: Environment, urls: seq<Option<string>>, stop: StopTime, full: bool)
    requires t < |env.turns| == |urls| && !r.failed
    requires full ==> stop == Never && env.turns[t].reply.Reply?
    requires TurnInvariant(r, t, stop, full)
    ensures TurnInvariant(TakeTurn(r, t, c, env, urls, stop), t + 1, stop, full)
  {
    TakeTurnSpeakers(r, t, c, env, urls, stop);
    var sp := Speakers(r.sent);
    var sp' := sp + [SpeakerOf(t)];
    if |sp| == t {
      assert Alternating(sp') by {
        forall i | 0 <= i < |sp'| ensures sp'[i] == SpeakerOf(i) {
          if i < |sp| { assert sp'[i] == sp[i]; }
        }
      }
    }
  }

  lemma {:induction false} RunTurnsAlternates(r: Run, t: nat, c: Composed, env: Environment, urls: seq<Option<string>>, stop: StopTime, full: bool)
    requires |env.turns| == |urls| == MaxTurns && t <= MaxTurns
    requires full ==> stop == Never && AllReplies(env.turns)
    requires TurnInvariant(r, t, stop, full)
    ensures TurnInvariant(RunTurns(r, t, c, env, urls, stop), MaxTurns, stop, full)
    decreases MaxTurns - t
  {
    if t == MaxTurns || r.failed || (t > 0 && StopSet(r, stop)) {
      assert RunTurns(r, t, c, env, urls, stop) == r;
      assert TurnInvariant(r, MaxTurns, stop, full);
    } else {
      var r' := TakeTurn(r, t, c, env, urls, stop);
      assert RunTurns(r, t, c, env, urls, stop) == RunTurns(r', t + 1, c, env, urls, stop);
      TakeTurnKeepsInvariant(r, t, c, env, urls, stop, full);
      RunTurnsAlternates(r', t + 1, c, env, urls, stop, full);
    }
  }

  /** Whatever the services return and whenever the stop arrives, the
      `speaking` messages name entity 1, 2, 1, 2, ... and there are at most
      22 of them; with no stop and every completion answered there are
      exactly 22. */
  lemma ConversationAlternates(config: StartConfig, c: Composed, env: Environment, stop: StopTime)
    requires |env.turns| == MaxTurns
    ensures var sp := Speakers(Converse(config, c, env, stop).sent);
      && Alternating(sp) && |sp| <= MaxTurns
      && (stop == Never && AllReplies(env.turns) && Rejection(config, env).None? ==> |sp| == MaxTurns)
  {
    match Rejection(config, env)
    case Some(reason) =>
      SpeakersAppend([], Error(Some(reason)));
    case None =>
      var full := stop == Never && AllReplies(env.turns);
      RunTurnsAlternates(Fresh, 0, c, env, AudioUrls(c, env), stop, full);
  }

  // ---------------------------------------------------------------------
  // The stop flag only suppresses: a stopped run sends a prefix of what
  // the same run sends when never stopped.

  lemma {:induction false} RunTurnsSendsMore(r: Run, t: nat, c: Composed, env: Environment, urls: seq<Option<string>>, stop: StopTime)
    requires |env.turns| == |urls| == MaxTurns && t <= MaxTurns
    ensures r.sent <= RunTurns(r, t, c, env, urls, stop).sent
    decreases MaxTurns - t
  {
    if t == MaxTurns || r.failed || (t > 0 && StopSet(r, stop)) {
      assert RunTurns(r, t, c, env, urls, stop) == r;
    } else {
      var r' := TakeTurn(r, t, c, env, urls, stop);
      assert RunTurns(r, t, c, env, urls, stop) == RunTurns(r', t + 1, c, env, urls, stop);
      RunTurnsSendsMore(r', t + 1, c, env, urls, stop);
    }
  }

  lemma AnnounceUnderStop(r: Run, text: Option<string>, e: Entity, url: Option<string>, n: nat)
    requires !StopSet(r, AfterAwait(n))
    ensures var a := Announce(r, e, text, url, AfterAwait(n));
            var b := Announce(r, e, text, url, Never);
      && a.sent <= b.sent
      && (!StopSet(a, AfterAwait(n)) ==> a == b)
  {
    var stop := AfterAwait(n);
    var sp := Speaking(e, url, text);
    var r2 := r.(sent := r.sent + [sp], awaits := r.awaits + 1);
    var r3 := if url.Some? then r2.(awaits := r2.awaits + 1) else r2;
    assert SafeSend(r, sp, stop) == r2 && SafeSend(r, sp, Never) == r2;
    if StopSet(r3, stop) {
      assert Announce(r, e, text, url, stop) == r3.(awaits := r3.awaits + 1);
      assert Announce(r, e, text, url, Never).sent == r3.sent + [FinishedSpeaking];
    }
  }

  lemma PlayAudioUnderStop(r: Run, text: Option<string>, e: Entity, url: Option<string>, n: nat)
    ensures PlayAudio(r, text, e, url, AfterAwait(n)).sent <= PlayAudio(r, text, e, url, Never).sent
    ensures !StopSet(PlayAudio(r, text, e, url, AfterAwait(n)), AfterAwait(n)) ==>
              PlayAudio(r, text, e, url, AfterAwait(n)) == PlayAudio(r, text, e, url, Never)
  {
    var stop := AfterAwait(n);
    var r1 := r.(awaits := r.awaits + 1);
    if StopSet(r, stop) {
      PlayAudioStoppedEarly(r, text, e, url, n);
    } else if StopSet(r1, stop) {
      PlayAudioStoppedEarly(r, text, e, url, n);
    } else {
      AnnounceUnderStop(r1, text, e, url, n);
    }
  }

  lemma PlayAudioStoppedEarly(r: Run, text: Option<string>, e: Entity, url: Option<string>, n: nat)
    requires StopSet(r.(awaits := r.awaits + 1), AfterAwait(n))
    ensures PlayAudio(r, text, e, url, AfterAwait(n)).sent == r.sent
    ensures StopSet(PlayAudio(r, text, e, url, AfterAwait(n)), AfterAwait(n))
    ensures r.sent <= PlayAudio(r, text, e, url, Never).sent
  {
  }

  lemma TakeTurnUnderStop(r: Run, t: nat, c: Composed, env: Environment, urls: seq<Option<string>>, n: nat)
    requires t < |env.turns| == |urls|
    ensures var a := TakeTurn(r, t, c, env, urls, AfterAwait(n));
            var b := TakeTurn(r, t, c, env, urls, Never);
      && a.sent <= b.sent
      && (!StopSet(a, AfterAwait(n)) ==> a == b)
  {
    var e := SpeakerOf(t);
    var r0 := Asked(r, t, c);
    match env.turns[t].reply
    case LlmFailure(message) =>
      assert TakeTurn(r, t, c, env, urls, AfterAwait(n)) == SafeSend(r0, Error(Some(message)), AfterAwait(n)).(failed := true);
      assert TakeTurn(r, t, c, env, urls, Never) == SafeSend(r0, Error(Some(message)), Never).(failed := true);
    case Reply(content) =>
      var r1 := r0.(histories := Record(r0.histories, t, e, content), turnsTaken := r0.turnsTaken + 1);
      assert TakeTurn(r, t, c, env, urls, AfterAwait(n)) == PlayAudio(r1, content, e, urls[t], AfterAwait(n));
      assert TakeTurn(r, t, c, env, urls, Never) == PlayAudio(r1, content, e, urls[t], Never);
      PlayAudioUnderStop(r1, content, e, urls[t], n);
  }

  lemma PrefixTransitive<T>(a: seq<T>, b: seq<T>, d: seq<T>)
    requires a <= b && b <= d
    ensures a <= d
  {
    assert d[..|a|] == b[..|a|];
  }

  /** When the stop lands inside turn `t`, the stopped run ends there. */
  lemma StopInsideTurn(r: Run, t: nat, c: Composed, env: Environment, urls: seq<Option<string>>, n: nat)
    requires |env.turns| == |urls| == MaxTurns && t < MaxTurns && !r.failed && !(t > 0 && StopSet(r, AfterAwait(n)))
    requires StopSet(TakeTurn(r, t, c, env, urls, AfterAwait(n)), AfterAwait(n))
    ensures RunTurns(r, t, c, env, urls, AfterAwait(n)).sent <= RunTurns(r, t, c, env, urls, Never).sent
  {
    var a := TakeTurn(r, t, c, env, urls, AfterAwait(n));
    var b := TakeTurn(r, t, c, env, urls, Never);
    assert RunTurns(r, t, c, env, urls, AfterAwait(n)) == a;
    assert RunTurns(r, t, c, env, urls, Never) == RunTurns(b, t + 1, c, env, urls, Never);
    TakeTurnUnderStop(r, t, c, env, urls, n);
    RunTurnsSendsMore(b, t + 1, c, env, urls, Never);
    PrefixTransitive(a.sent, b.sent, RunTurns(b, t + 1, c, env, urls, Never).sent);
  }

  /** When the stop does not land inside turn `t`, both runs agree on it. */
  lemma StopAfterTurn(r: Run, t: nat, c: Composed, env: Environment, urls: seq<Option<string>>, n: nat)
    requires |env.turns| == |urls| == MaxTurns && t < MaxTurns && !r.failed && !(t > 0 && StopSet(r, AfterAwait(n)))
    requires !StopSet(TakeTurn(r, t, c, env, urls, AfterAwait(n)), AfterAwait(n))
    ensures var a := TakeTurn(r, t, c, env, urls, AfterAwait(n));
      && RunTurns(r, t, c, env, urls, AfterAwait(n)) == RunTurns(a, t + 1, c, env, urls, AfterAwait(n))
      && RunTurns(r, t, c, env, urls, Never) == RunTurns(a, t + 1, c, env, urls, Never)
  {
    TakeTurnUnderStop(r, t, c, env, urls, n);
  }

  lemma {:induction false} RunTurnsUnderStop(r: Run, t: nat, c: Composed, env: Environment, urls: seq<Option<string>>, n: nat)
    requires |env.turns| == |urls| == MaxTurns && t <= MaxTurns
    ensures RunTurns(r, t, c, env, urls, AfterAwait(n)).sent <= RunTurns(r, t, c, env, urls, Never).sent
    decreases MaxTurns - t
  {
    var stop := AfterAwait(n);
    if t == MaxTurns || r.failed {
      assert RunTurns(r, t, c, env, urls, stop) == r == RunTurns(r, t, c, env, urls, Never);
    } else if t > 0 && StopSet(r, stop) {
      assert RunTurns(r, t, c, env, urls, stop) == r;
      RunTurnsSendsMore(r, t, c, env, urls, Never);
    } else if StopSet(TakeTurn(r, t, c, env, urls, stop), stop) {
      StopInsideTurn(r, t, c, env, urls, n);
    } else {
      StopAfterTurn(r, t, c, env, urls, n);
      RunTurnsUnderStop(TakeTurn(r, t, c, env, urls, stop), t + 1, c, env, urls, n);
    }
  }

  /** Setting the stop flag never changes or adds a message: everything a
      stopped conversation sends, the same conversation sends unstopped,
      in the same order, and nothing comes after the stop. */
  lemma StopOnlyTruncates(config: StartConfig, c: Composed, env: Environment, n: nat)
    requires |env.turns| == MaxTurns
    ensures Converse(config, c, env, AfterAwait(n)).sent <= Converse(config, c, env, Never).sent
  {
    if Rejection(config, env).None? {
      RunTurnsUnderStop(Fresh, 0, c, env, AudioUrls(c, env), n);
    }
  }

  /** Once the flag is set between turns, the run sends nothing more. */
  lemma {:induction false} StoppedRunIsSilent(r: Run, t: nat, c: Composed, env: Environment, urls: seq<Option<string>>, stop: StopTime)
    requires |env.turns| == |urls| == MaxTurns && t <= MaxTurns
    requires StopSet(r, stop)
    ensures RunTurns(r, t, c, env, urls, stop).sent == r.sent
    decreases MaxTurns - t
  {
    // Between turns the stopped run returns at once; only turn 0 runs.
    if t == 0 && !r.failed {
      var r' := TakeTurn(r, t, c, env, urls, stop);
      TakeTurnSpeakers(r, t, c, env, urls, stop);
      assert r'.sent == r.sent by {
        match env.turns[t].reply
        case LlmFailure(_) =>
        case Reply(_) =>
      }
      StoppedRunIsSilent(r', t + 1, c, env, urls, stop);
    }
  }

  // ---------------------------------------------------------------------
  // Histories: each entity sees the dialogue from its own side

  /** Entity `e`'s view of turns 1 .. hi - 1: every truthy reply, as
      `assistant` when `e` spoke it and as `user` when the other did. */
  function ViewOf(e: Entity, turns: seq<TurnInput>, hi: nat): seq<ChatMessage>
    requires hi <= |turns|
  {
    if hi <= 1 then []
    else
      var content := ReplyContent(turns[hi - 1]);
      ViewOf(e, turns, hi - 1)
      + (if Truthy(content) then [Message(if SpeakerOf(hi - 1) == e then "assistant" else "user", content)] else [])
  }

  /** The history entity `e` holds once `taken` turns got a completion:
      entity 2's starts with the seed reply as a `user` entry. */
  function ExpectedHistory(e: Entity, turns: seq<TurnInput>, taken: nat): seq<ChatMessage>
    requires taken <= |turns|
  {
    if taken == 0 then []
    else if e == One then ViewOf(One, turns, taken)
    else [Message("user", ReplyContent(turns[0]))] + ViewOf(Two, turns, taken)
  }

  /** The call turn `t` makes: the speaker's system prompt with the seed
      request (turn 0) or the speaker's history so far. */
  function ExpectedCall(c: Composed, turns: seq<TurnInput>, t: nat): LlmCall
    requires t <= |turns|
  {
    LlmCall(c.systemPrompt.Get(SpeakerOf(t)),
            if t == 0 then [Message("user", Some(SeedRequest(c.systemPrompt.one)))]
            else ExpectedHistory(SpeakerOf(t), turns, t))
  }

  /** What holds of the histories and calls of a run that attempted
      `|r.requests|` turns. */
  predicate HistoryInvariant(r: Run, c: Composed, turns: seq<TurnInput>) {
    var n := |r.requests|;
    && n <= |turns|
    && (if r.failed then n >= 1 && r.turnsTaken == n - 1 else r.turnsTaken == n)
    && r.histories == Pair(ExpectedHistory(One, turns, r.turnsTaken), ExpectedHistory(Two, turns, r.turnsTaken))
    && (forall i :: 0 <= i < n ==> r.requests[i] == ExpectedCall(c, turns, i))
    && (forall i :: 0 <= i < r.turnsTaken ==> turns[i].reply.Reply?)
  }

  /** Recording turn `t` extends both expected histories by that turn. */
  lemma RecordExtends(turns: seq<TurnInput>, t: nat)
    requires t < |turns|
    ensures var h := Pair(ExpectedHistory(One, turns, t), ExpectedHistory(Two, turns, t));
      Record(h, t, SpeakerOf(t), ReplyContent(turns[t]))
      == Pair(ExpectedHistory(One, turns, t + 1), ExpectedHistory(Two, turns, t + 1))
  {
    var content := ReplyContent(turns[t]);
    var h := Pair(ExpectedHistory(One, turns, t), ExpectedHistory(Two, turns, t));
    var e := SpeakerOf(t);
    if t == 0 {
      assert ExpectedHistory(One, turns, t + 1) == ViewOf(One, turns, 1) == [];
      assert ExpectedHistory(Two, turns, t + 1) == [Message("user", content)] + ViewOf(Two, turns, 1);
      assert ViewOf(Two, turns, 1) == [];
      assert ExpectedHistory(Two, turns, t + 1) == [Message("user", content)];
      assert Record(h, t, e, content) == Pair([], [Message("user", content)]);
    } else {
      var seed := [Message("user", ReplyContent(turns[0]))];
      var added := if Truthy(content) then [Message("assistant", content)] else [];
      var heard := if Truthy(content) then [Message("user", content)] else [];
      assert ViewOf(e, turns, t + 1) == ViewOf(e, turns, t) + added;
      assert ViewOf(e.Other(), turns, t + 1) == ViewOf(e.Other(), turns, t) + heard;
      assert ExpectedHistory(Two, turns, t + 1) == seed + ViewOf(Two, turns, t + 1);
      assert seed + (ViewOf(Two, turns, t) + added) == (seed + ViewOf(Two, turns, t)) + added;
      assert seed + (ViewOf(Two, turns, t) + heard) == (seed + ViewOf(Two, turns, t)) + heard;
      if !Truthy(content) {
        assert h.one + [] == h.one && h.two + [] == h.two;
      } else if e == One {
        var h1 := h.Set(Two, h.two + heard);
        assert Record(h, t, e, content) == h1.Set(One, h1.one + added);
      } else {
        var h1 := h.Set(One, h.one + heard);
        assert Record(h, t, e, content) == h1.Set(Two, h1.two + added);
      }
    }
  }

  /** The call of turn `t` is the expected one while the invariant holds. */
  lemma RequestIsExpected(r: Run, t: nat, c: Composed, turns: seq<TurnInput>)
    requires HistoryInvariant(r, c, turns) && !r.failed && |r.requests| == t < |turns|
    ensures Request(r, t, c) == ExpectedCall(c, turns, t)
  {
  }

  lemma AskedKeepsCalls(r: Run, t: nat, c: Composed, turns: seq<TurnInput>)
    requires HistoryInvariant(r, c, turns) && !r.failed && |r.requests| == t < |turns|
    ensures var r0 := Asked(r, t, c);
      |r0.requests| == t + 1 && forall i :: 0 <= i < t + 1 ==> r0.requests[i] == ExpectedCall(c, turns, i)
  {
    RequestIsExpected(r, t, c, turns);
  }

  lemma RepliedTurnKeepsHistories(r: Run, t: nat, c: Composed, env: Environment, urls: seq<Option<string>>, stop: StopTime)
    requires t < |env.turns| == |urls| && env.turns[t].reply.Reply?
    requires HistoryInvariant(r, c, env.turns) && !r.failed && |r.requests| == t
    ensures var r' := TakeTurn(r, t, c, env, urls, stop);
      HistoryInvariant(r', c, env.turns) && |r'.requests| == t + 1
  {
    var e := SpeakerOf(t);
    var content := env.turns[t].reply.content;
    var r0 := Asked(r, t, c);
    AskedKeepsCalls(r, t, c, env.turns);
    var r1 := r0.(histories := Record(r0.histories, t, e, content), turnsTaken := t + 1);
    assert TakeTurn(r, t, c, env, urls, stop) == PlayAudio(r1, content, e, urls[t], stop);
    RecordExtends(env.turns, t);
    assert HistoryInvariant(r1, c, env.turns);
  }

  lemma FailedTurnKeepsHistories(r: Run, t: nat, c: Composed, env: Environment, urls: seq<Option<string>>, stop: StopTime)
    requires t < |env.turns| == |urls| && env.turns[t].reply.LlmFailure?
    requires HistoryInvariant(r, c, env.turns) && !r.failed && |r.requests| == t
    ensures var r' := TakeTurn(r, t, c, env, urls, stop);
      HistoryInvariant(r', c, env.turns) && |r'.requests| == t + 1
  {
    var r0 := Asked(r, t, c);
    AskedKeepsCalls(r, t, c, env.turns);
    var r1 := SafeSend(r0, Error(Some(env.turns[t].reply.message)), stop);
    assert TakeTurn(r, t, c, env, urls, stop) == r1.(failed := true);
  }

  lemma TakeTurnKeepsHistories(r: Run, t: nat, c: Composed, env: Environment, urls: seq<Option<string>>, stop: StopTime)
    requires t < |env.turns| == |urls|
    requires HistoryInvariant(r, c, env.turns) && !r.failed && |r.requests| == t
    ensures var r' := TakeTurn(r, t, c, env, urls, stop);
      HistoryInvariant(r', c, env.turns) && |r'.requests| == t + 1
  {
    if env.turns[t].reply.Reply? {
      RepliedTurnKeepsHistories(r, t, c, env, urls, stop);
    } else {
      FailedTurnKeepsHistories(r, t, c, env, urls, stop);
    }
  }

  lemma {:induction false} RunTurnsKeepsHistories(r: Run, t: nat, c: Composed, env: Environment, urls: seq<Option<string>>, stop: StopTime)
    requires |env.turns| == |urls| == MaxTurns && t <= MaxTurns
    requires HistoryInvariant(r, c, env.turns) && (!r.failed ==> |r.requests| == t)
    ensures HistoryInvariant(RunTurns(r, t, c, env, urls, stop), c, env.turns)
    decreases MaxTurns - t
  {
    if t == MaxTurns || r.failed || (t > 0 && StopSet(r, stop)) {
      assert RunTurns(r, t, c, env, urls, stop) == r;
    } else {
      var r' := TakeTurn(r, t, c, env, urls, stop);
      assert RunTurns(r, t, c, env, urls, stop) == RunTurns(r', t + 1, c, env, urls, stop);
      TakeTurnKeepsHistories(r, t, c, env, urls, stop);
      RunTurnsKeepsHistories(r', t + 1, c, env, urls, stop);
    }
  }

  /** However the run ends, each entity's history is its own view of the
      completed turns, and every completion call was the speaker's system
      prompt followed by the speaker's history at that moment. */
  lemma ConversationHistories(config: StartConfig, c: Composed, env: Environment, stop: StopTime)
    requires |env.turns| == MaxTurns && Rejection(config, env).None?
    ensures var r := Converse(config, c, env, stop);
      && r.turnsTaken <= MaxTurns
      && r.histories.one == ExpectedHistory(One, env.turns, r.turnsTaken)
      && r.histories.two == ExpectedHistory(Two, env.turns, r.turnsTaken)
      && |r.requests| == r.turnsTaken + (if r.failed then 1 else 0)
      && (forall i :: 0 <= i < |r.requests| ==> r.requests[i] == ExpectedCall(c, env.turns, i))
      && (forall i :: 0 <= i < r.turnsTaken ==> env.turns[i].reply.Reply?)
  {
    RunTurnsKeepsHistories(Fresh, 0, c, env, AudioUrls(c, env), stop);
  }

  /** A message seen from the other side: `user` and `assistant` swap. */
  function Mirror(m: ChatMessage): ChatMessage {
    if m.role == Some("user") then m.(role := Some("assistant"))
    else if m.role == Some("assistant") then m.(role := Some("user"))
    else m
  }

  function MirrorAll(ms: seq<ChatMessage>): (r: seq<ChatMessage>)
    ensures |r| == |ms| && forall i :: 0 <= i < |ms| ==> r[i] == Mirror(ms[i])
  {
    if ms == [] then [] else MirrorAll(ms[..|ms| - 1]) + [Mirror(ms[|ms| - 1])]
  }

  /** The two views hold the same replies in the same order, each with the
      roles swapped. */
  lemma {:induction false} ViewsMirror(turns: seq<TurnInput>, hi: nat)
    requires hi <= |turns|
    ensures ViewOf(Two, turns, hi) == MirrorAll(ViewOf(One, turns, hi))
    decreases hi
  {
    if hi > 1 {
      ViewsMirror(turns, hi - 1);
      var content := ReplyContent(turns[hi - 1]);
      if Truthy(content) {
        var one := ViewOf(One, turns, hi);
        assert one[..|one| - 1] == ViewOf(One, turns, hi - 1);
      }
    }
  }

  /** Apart from entity 2's seed entry, the histories mirror each other. */
  lemma HistoriesMirror(turns: seq<TurnInput>, taken: nat)
    requires 1 <= taken <= |turns|
    ensures ExpectedHistory(Two, turns, taken)
         == [Message("user", ReplyContent(turns[0]))] + MirrorAll(ExpectedHistory(One, turns, taken))
  {
    ViewsMirror(turns, taken);
  }
}

=== FILE: endpoint.dfy ===
/** The per-connection bookkeeping of the dialogue server (app.py): the
    three module-level maps keyed by connection id, their comprehensive
    cleanup, the audio-finished handshake, and the dispatch of the client's
    `start`, `stop` and `audio_finished` requests on one WebSocket.

    Task cancellation is modelled by its observable effect: a cancelled
    conversation task runs `cleanup_conversation_state` in its
    `CancelledError` handler. The 0.2 s sleep and the event loop itself are
    not modelled. */
module Endpoint {

  import opened Common
  import opened Protocol
  import opened TtsHelper

  /** `str(id(websocket))`. */
  type ConnId = string

  /** The server-wide state one connection touches.
      - `active`: `active_conversations`, the value is the `stop` flag;
      - `events`: `audio_finished_events`, the value is whether the event
        is set;
      - `tasks`: the keys of `conversation_tasks`;
      - `waiting`: connections whose conversation task is blocked inside
        `wait_for_audio_finished`, on the event that was registered for it;
      - `tts` and `files`: the speech helper and its audio directory. */
  datatype Registry = Registry(
    active: map<ConnId, bool>,
    events: map<ConnId, bool>,
    tasks: set<ConnId>,
    waiting: set<ConnId>,
    tts: Helper,
    files: seq<AudioFile>)

  /** Every blocked task waits on an event that is still registered and not
      yet set: some later `set()` can still release it. */
  predicate WaitersReleasable(s: Registry) {
    forall id :: id in s.waiting ==> id in s.events && !s.events[id]
  }

  /** What `safe_send` and the playback guards read: a conversation without
      an entry counts as stopped (`.get(id, {}).get("stop", True)`). */
  predicate IsStopped(s: Registry, id: ConnId) {
    id !in s.active || s.active[id]
  }

  /** `id` holds no entry in any of the three maps. */
  predicate Forgotten(s: Registry, id: ConnId) {
    id !in s.active && id !in s.events && id !in s.tasks
  }

  /** The entries of connection `other` are the same in both states. */
  predicate SameEntries(s: Registry, s': Registry, other: ConnId) {
    && (other in s'.active <==> other in s.active)
    && (other in s.active ==> s'.active[other] == s.active[other])
    && (other in s'.events <==> other in s.events)
    && (other in s.events ==> s'.events[other] == s.events[other])
    && (other in s'.tasks <==> other in s.tasks)
    && (other in s'.waiting <==> other in s.waiting)
  }

  /** Outcome of a cleanup: the new state and whether an audio event was
      set (releasing any task waiting on it) before it was dropped. */
  datatype Cleaned = Cleaned(state: Registry, released: bool)

  /** `cleanup_conversation_state`: mark stopped and drop the conversation
      entry, set and drop the audio event, drop the task entry, then stop
      all audio and delete every managed audio file older than `now`. */
  function CleanupConversationState(s: Registry, id: ConnId, now: real): (c: Cleaned)
    ensures Forgotten(c.state, id) && IsStopped(c.state, id)
    ensures c.released <==> id in s.events
    ensures forall other :: other != id ==> SameEntries(s, c.state, other)
    ensures c.state.tts.stopRequested && c.state.tts.audioDir == s.tts.audioDir
    ensures c.state.files == CleanupOldFiles(s.files, now, 0)
  {
    // Setting the stop flag and then deleting the entry leaves no entry.
    var active := if id in s.active then s.active[id := true] - {id} else s.active;
    // `set()` wakes the task blocked on this event, then the entry goes.
    var waiting := if id in s.events then s.waiting - {id} else s.waiting;
    var events := if id in s.events then s.events[id := true] - {id} else s.events;
    var tasks := if id in s.tasks then s.tasks - {id} else s.tasks;
    Cleaned(
      Registry(active, events, tasks, waiting, StopAllAudio(s.tts), CleanupOldFiles(s.files, now, 0)),
      id in s.events)
  }

  /** Cleanup keeps every blocked task releasable: the event of `id` is set
      before it is dropped, so the task waiting on it is woken rather than
      left waiting on an event nobody can reach. */
  lemma CleanupKeepsWaitersReleasable(s: Registry, id: ConnId, now: real)
    requires WaitersReleasable(s)
    ensures var s' := CleanupConversationState(s, id, now).state;
            WaitersReleasable(s') && id !in s'.waiting
  {
  }

  /** Calling the cleanup twice is harmless: the second call changes nothing
      and releases nothing. */
  lemma CleanupIdempotent(s: Registry, id: ConnId, now: real)
    ensures var once := CleanupConversationState(s, id, now).state;
            var twice := CleanupConversationState(once, id, now);
            twice.state == once && !twice.released
  {
    var once := CleanupConversationState(s, id, now).state;
    var twice := CleanupConversationState(once, id, now).state;
    CleanupOldFilesIdempotent(s.files, now, 0);
    assert twice.active == once.active;
    assert twice.events == once.events;
  }

  /** Cancelling the connection's task, if there is one: the cancellation
      interrupts any wait of the task, and its `CancelledError` handler runs
      the cleanup. */
  function CancelTask(s: Registry, id: ConnId, now: real): (s': Registry)
    ensures id !in s'.tasks
    ensures id in s.tasks ==> Forgotten(s', id) && id !in s'.waiting
    ensures WaitersReleasable(s) ==> WaitersReleasable(s')
    ensures forall other :: other != id ==> SameEntries(s, s', other)
  {
    if id in s.tasks then CleanupConversationState(s.(waiting := s.waiting - {id}), id, now).state
    else s
  }

  /** `wait_for_audio_finished` up to its `await`: register an event if
      there is none, clear it, and block on it. */
  function BeginWait(s: Registry, id: ConnId): (s': Registry)
    ensures id in s'.events && !s'.events[id] && id in s'.waiting
    ensures forall other :: other != id ==> SameEntries(s, s', other)
    ensures s'.active == s.active && s'.tasks == s.tasks
  {
    s.(events := s.events[id := false], waiting := s.waiting + {id})
  }

  lemma BeginWaitKeepsWaitersReleasable(s: Registry, id: ConnId)
    requires WaitersReleasable(s)
    ensures WaitersReleasable(BeginWait(s, id))
  {
  }

  /** The outcome of handling one client request. */
  datatype Handled = Handled(state: Registry, out: seq<ServerMessage>)

  /** `start`: cancel the old task, clean up, and launch a new
      conversation, whose first act is to register itself as not stopped. */
  function HandleStart(s: Registry, id: ConnId, now: real): Registry {
    var s1 := CleanupConversationState(CancelTask(s, id, now), id, now).state;
    s1.(tasks := s1.tasks + {id}, active := s1.active[id := false])
  }

  /** `stop`: cancel the task, raise the stop flag, clean up, stop the
      audio, and reply `stopped`. */
  function HandleStop(s: Registry, id: ConnId, now: real): Handled {
    var s1 := CancelTask(s, id, now);
    var s2 := if id in s1.active then s1.(active := s1.active[id := true]) else s1;
    var s3 := CleanupConversationState(s2, id, now).state;
    Handled(s3.(tts := StopAllAudio(s3.tts)), [Stopped])
  }

  /** `audio_finished`: set the registered event, if any; never create one. */
  function HandleAudioFinished(s: Registry, id: ConnId): Registry {
    if id in s.events then s.(events := s.events[id := true], waiting := s.waiting - {id})
    else s
  }

  /** The body of the receive loop for one parsed request. Unknown request
      types are ignored. */
  function Dispatch(s: Registry, id: ConnId, msg: ClientMessage, now: real): (h: Handled)
    ensures forall other :: other != id ==> SameEntries(s, h.state, other)
    ensures msg.Stop? <==> h.out == [Stopped]
    ensures !msg.Stop? ==> h.out == []
  {
    match msg
    case Start(_) => Handled(HandleStart(s, id, now), [])
    case Stop => HandleStop(s, id, now)
    case AudioFinished => Handled(HandleAudioFinished(s, id), [])
    case OtherRequest(_) => Handled(s, [])
  }

  /** `WebSocketDisconnect`: cancel the task and clean up. */
  function Disconnect(s: Registry, id: ConnId, now: real): (s': Registry)
    ensures Forgotten(s', id) && IsStopped(s', id)
    ensures forall other :: other != id ==> SameEntries(s, s', other)
  {
    CleanupConversationState(CancelTask(s, id, now), id, now).state
  }

  /** After `start` the connection has exactly one running conversation,
      not stopped, with no stale audio event and no task of the previous
      conversation still waiting. */
  lemma StartLaunchesFresh(s: Registry, id: ConnId, msg: ClientMessage, now: real)
    requires msg.Start? && WaitersReleasable(s)
    ensures var s' := Dispatch(s, id, msg, now).state;
            && id in s'.tasks && id in s'.active && !IsStopped(s', id)
            && id !in s'.events && id !in s'.waiting
            && s'.tts.stopRequested
  {
  }

  /** After `stop` the connection is forgotten and counts as stopped, so
      `safe_send` suppresses everything its old task might still send; the
      only reply is the single `stopped`. */
  lemma StopForgetsConnection(s: Registry, id: ConnId, msg: ClientMessage, now: real)
    requires msg.Stop? && WaitersReleasable(s)
    ensures var h := Dispatch(s, id, msg, now);
            && Forgotten(h.state, id) && IsStopped(h.state, id) && id !in h.state.waiting
            && h.out == [Stopped]
            && h.state.tts.stopRequested
            && h.state.files == CleanupOldFiles(s.files, now, 0)
  {
    var s1 := CancelTask(s, id, now);
    CleanupOldFilesIdempotent(s.files, now, 0);
    assert id in s.tasks ==> s1.files == CleanupOldFiles(s.files, now, 0);
  }

  /** `audio_finished` never registers an event: it sets an existing one
      (releasing the waiting task) and is otherwise a no-op. */
  lemma AudioFinishedSetsOnlyExisting(s: Registry, id: ConnId, msg: ClientMessage, now: real)
    requires msg.AudioFinished?
    ensures var s' := Dispatch(s, id, msg, now).state;
            && s'.events.Keys == s.events.Keys
            && s'.active == s.active && s'.tasks == s.tasks
            && (id in s.events ==> s'.events[id] && id !in s'.waiting)
            && (id !in s.events ==> s' == s)
  {
  }

  /** The handshake: a task that began waiting is released by the client's
      `audio_finished`, which leaves the event set. */
  lemma WaitThenAudioFinished(s: Registry, id: ConnId, now: real)
    requires id !in s.waiting
    ensures var s' := Dispatch(BeginWait(s, id), id, AudioFinished, now).state;
            && s'.waiting == s.waiting
            && id in s'.events && s'.events[id]
  {
    var s1 := BeginWait(s, id);
    assert s1.waiting - {id} == s.waiting;
  }

  /** Every request keeps blocked tasks releasable. */
  lemma DispatchKeepsWaitersReleasable(s: Registry, id: ConnId, msg: ClientMessage, now: real)
    requires WaitersReleasable(s)
    ensures WaitersReleasable(Dispatch(s, id, msg, now).state)
  {
    match msg
    case Start(_) =>
      CleanupKeepsWaitersReleasable(CancelTask(s, id, now), id, now);
    case Stop =>
      var s1 := CancelTask(s, id, now);
      var s2 := if id in s1.active then s1.(active := s1.active[id := true]) else s1;
      CleanupKeepsWaitersReleasable(s2, id, now);
    case AudioFinished =>
    case OtherRequest(_) =>
  }
}

=== FILE: protocol.dfy ===
/** The JSON messages exchanged over the dialogue WebSocket. The wire's
    flat `system1`/`system2`, `voice1`/`voice2`, ... fields are held as one
    `Pair` per setting; a field missing from the JSON object is `None`. */
module Protocol {

  import opened Common

  /** The `start` request. `prompt` is always present (the client always
      sends both prompts); every other setting may be absent, in which case
      the server falls back to a default. Floating-point settings are exact
      reals here. */
  datatype StartConfig = StartConfig(
    prompt: Pair<string>,
    voice: Pair<Option<string>>,
    speed: Pair<Option<real>>,
    temperature: Pair<Option<real>>,
    topP: Pair<Option<real>>,
    responseLength: Pair<Option<int>>)

  /** Client to server. `OtherRequest` is any other `type` value. */
  datatype ClientMessage =
    | Start(config: StartConfig)
    | Stop
    | AudioFinished
    | OtherRequest(kind: string)

  /** Server to client. `audioUrl`, `text` and `message` may be JSON null
      or missing; `OtherReply` is any other `type` value. */
  datatype ServerMessage =
    | Speaking(entity: Entity, audioUrl: Option<string>, text: Option<string>)
    | FinishedSpeaking
    | Stopped
    | Error(message: Option<string>)
    | OtherReply(kind: string)

  /** The entities of the `speaking` messages of a transcript, in order. */
  function Speakers(sent: seq<ServerMessage>): (r: seq<Entity>)
    ensures |r| <= |sent|
  {
    if sent == [] then []
    else Speakers(sent[..|sent| - 1])
         + (if sent[|sent| - 1].Speaking? then [sent[|sent| - 1].entity] else [])
  }

  lemma SpeakersAppend(sent: seq<ServerMessage>, m: ServerMessage)
    ensures Speakers(sent + [m]) == Speakers(sent) + (if m.Speaking? then [m.entity] else [])
  {
    assert (sent + [m])[..|sent|] == sent;
  }
}

=== FILE: text.dfy ===
/** String helpers the dialogue code relies on from its host languages:
    whitespace trimming (JavaScript `String.prototype.trim` and Python
    `str.strip`), prefix and suffix tests, the UTF-16 length JavaScript
    reports, and decimal rendering of integers (Python `str(int)`). */
module Text {

  import opened Common

  /** Characters JavaScript's `trim()` removes: WhiteSpace and LineTerminator
      of the ECMAScript grammar. */
  const JsWhitespace: set<char> :=
    {'\t', '\n', '\U{000B}', '\U{000C}', '\r', ' ', '\U{00A0}', '\U{1680}',
     '\U{2000}', '\U{2001}', '\U{2002}', '\U{2003}', '\U{2004}', '\U{2005}', '\U{2006}',
     '\U{2007}', '\U{2008}', '\U{2009}', '\U{200A}', '\U{2028}', '\U{2029}', '\U{202F}',
     '\U{205F}', '\U{3000}', '\U{FEFF}'}

  /** Characters for which Python's `str.isspace()` holds, which `strip()`
      removes when called without arguments. */
  const PyWhitespace: set<char> :=
    {'\t', '\n', '\U{000B}', '\U{000C}', '\r', '\U{001C}', '\U{001D}', '\U{001E}',
     '\U{001F}', ' ', '\U{0085}', '\U{00A0}', '\U{1680}',
     '\U{2000}', '\U{2001}', '\U{2002}', '\U{2003}', '\U{2004}', '\U{2005}', '\U{2006}',
     '\U{2007}', '\U{2008}', '\U{2009}', '\U{200A}', '\U{2028}', '\U{2029}', '\U{202F}',
     '\U{205F}', '\U{3000}'}

  predicate AllIn(s: string, ws: set<char>) {
    forall k :: 0 <= k < |s| ==> s[k] in ws
  }

  /** `s` without its leading characters from `ws`. */
  function TrimStart(s: string, ws: set<char>): (r: string)
    ensures |r| <= |s| && r == s[|s| - |r|..]
    ensures AllIn(s[..|s| - |r|], ws)
    ensures r == [] || r[0] !in ws
    decreases |s|
  {
    if |s| > 0 && s[0] in ws then TrimStart(s[1..], ws) else s
  }

  /** `s` without its trailing characters from `ws`. */
  function TrimEnd(s: string, ws: set<char>): (r: string)
    ensures |r| <= |s| && r == s[..|r|]
    ensures AllIn(s[|r|..], ws)
    ensures r == [] || r[|r| - 1] !in ws
    decreases |s|
  {
    if |s| > 0 && s[|s| - 1] in ws then TrimEnd(s[..|s| - 1], ws) else s
  }

  /** `s` without leading and trailing characters from `ws`. */
  function Trim(s: string, ws: set<char>): (r: string)
    ensures |r| <= |s|
    ensures r == [] || (r[0] !in ws && r[|r| - 1] !in ws)
  {
    TrimEnd(TrimStart(s, ws), ws)
  }

  /** Trimming leaves nothing exactly when every character is whitespace. */
  lemma TrimEmptyIff(s: string, ws: set<char>)
    ensures Trim(s, ws) == [] <==> AllIn(s, ws)
  {
    var a := TrimStart(s, ws);
    var i := |s| - |a|;
    if Trim(s, ws) == [] {
      assert a == [] by {
        assert a[0..] == a;
      }
      assert s[..i] == s;
    } else {
      var r := Trim(s, ws);
      assert r[0] == a[0] == s[i];
    }
  }

  /** Trimming twice is trimming once. */
  lemma TrimIdempotent(s: string, ws: set<char>)
    ensures Trim(Trim(s, ws), ws) == Trim(s, ws)
  {
    var r := Trim(s, ws);
    if r != [] {
      assert TrimStart(r, ws) == r;
      assert TrimEnd(r, ws) == r;
    }
  }

  predicate StartsWith(s: string, prefix: string) {
    |prefix| <= |s| && s[..|prefix|] == prefix
  }

  predicate EndsWith(s: string, suffix: string) {
    |suffix| <= |s| && s[|s| - |suffix|..] == suffix
  }

  /** Length as JavaScript's `.length` reports it: characters outside the
      Basic Multilingual Plane take two UTF-16 code units. */
  function Utf16Length(s: string): (n: nat)
    ensures |s| <= n <= 2 * |s|
  {
    if s == [] then 0
    else (if s[0] as int > 0xFFFF then 2 else 1) + Utf16Length(s[1..])
  }

  predicate IsDigit(c: char) {
    '0' <= c <= '9'
  }

  predicate AllDigits(s: string) {
    forall k :: 0 <= k < |s| ==> IsDigit(s[k])
  }

  function DigitChar(d: nat): (c: char)
    requires d < 10
    ensures IsDigit(c)
  {
    "0123456789"[d]
  }

  function DigitValue(c: char): (d: nat)
    requires IsDigit(c)
    ensures d < 10
  {
    (c as int) - ('0' as int)
  }

  /** Decimal rendering of a natural number, without leading zeros. */
  function NatToDecimal(n: nat): (r: string)
    ensures |r| >= 1 && AllDigits(r)
    ensures r[0] == '0' ==> r == "0"
    decreases n
  {
    if n < 10 then [DigitChar(n)] else NatToDecimal(n / 10) + [DigitChar(n % 10)]
  }

  /** The number a string of decimal digits denotes. */
  function DigitsValue(s: string): nat
    requires AllDigits(s)
  {
    if s == [] then 0 else 10 * DigitsValue(s[..|s| - 1]) + DigitValue(s[|s| - 1])
  }

  /** Reading back a rendered number gives the number. */
  lemma {:induction false} NatToDecimalRoundTrip(n: nat)
    ensures DigitsValue(NatToDecimal(n)) == n
    decreases n
  {
    var r := NatToDecimal(n);
    if n >= 10 {
      NatToDecimalRoundTrip(n / 10);
      assert r[..|r| - 1] == NatToDecimal(n / 10);
      assert DigitValue(DigitChar(n % 10)) == n % 10;
    } else {
      assert r[..0] == [];
      assert DigitValue(DigitChar(n)) == n;
    }
  }

  /** Python `str(i)` for an integer: a minus sign for negatives, then the
      decimal digits of the magnitude. */
  function IntToString(i: int): (r: string)
    ensures |r| >= 1
    ensures r[0] == '-' <==> i < 0
    ensures i >= 0 ==> AllDigits(r)
    ensures i < 0 ==> AllDigits(r[1..])
  {
    if i < 0 then "-" + NatToDecimal(-i) else NatToDecimal(i)
  }

  /** Parses an optional minus sign followed by at least one digit. */
  function ParseInt(s: string): Option<int> {
    if |s| >= 2 && s[0] == '-' && AllDigits(s[1..]) then
      var magnitude: int := DigitsValue(s[1..]);
      Some(-magnitude)
    else if |s| >= 1 && AllDigits(s) then
      var magnitude: int := DigitsValue(s);
      Some(magnitude)
    else None
  }

  lemma ParseNonNegative(digits: string)
    requires |digits| >= 1 && AllDigits(digits)
    ensures ParseInt(digits) == Some(DigitsValue(digits) as int)
  {
    assert !IsDigit('-');
    assert digits[0] != '-';
  }

  lemma ParseNegative(digits: string)
    requires |digits| >= 1 && AllDigits(digits)
    ensures ParseInt("-" + digits) == Some(-(DigitsValue(digits) as int))
  {
    assert ("-" + digits)[1..] == digits;
  }

  lemma IntToStringRoundTrip(i: int)
    ensures ParseInt(IntToString(i)) == Some(i)
  {
    if i < 0 {
      NatToDecimalRoundTrip(-i);
      ParseNegative(NatToDecimal(-i));
      assert IntToString(i) == "-" + NatToDecimal(-i);
    } else {
      NatToDecimalRoundTrip(i);
      ParseNonNegative(NatToDecimal(i));
      assert IntToString(i) == NatToDecimal(i);
    }
  }
}

=== FILE: tts_helper.dfy ===
/** The pure parts of the speech-synthesis helper (azure_tts_helper.py):
    voice lookup, the empty-text guard, the speaking-rate string and the
    SSML document, the audio file name, the predicate that decides which
    files the periodic cleanup deletes, and the stop flag. The synthesis
    service is external: whether it completed is an input. */
module TtsHelper {

  import opened Common
  import opened Text

  /** Display key to service voice name. */
  const VoiceMappings: map<string, string> := map[
    "entity1" := "en-US-ChristopherMultilingualNeural",
    "entity2" := "en-US-CoraMultilingualNeural",
    "Adam" := "en-US-AdamMultilingualNeural",
    "Alloy" := "en-US-AlloyTurboMultilingualNeural",
    "Amanda" := "en-US-AmandaMultilingualNeural",
    "Andrew" := "en-US-AndrewMultilingualNeural",
    "Ava" := "en-US-AvaMultilingualNeural",
    "Brandon" := "en-US-BrandonMultilingualNeural",
    "Brian" := "en-US-BrianMultilingualNeural",
    "Christopher" := "en-US-ChristopherMultilingualNeural",
    "Cora" := "en-US-CoraMultilingualNeural",
    "Davis" := "en-US-DavisMultilingualNeural",
    "Derek" := "en-US-DerekMultilingualNeural",
    "Dustin" := "en-US-DustinMultilingualNeural",
    "Echo" := "en-US-EchoTurboMultilingualNeural",
    "Emma" := "en-US-EmmaMultilingualNeural",
    "Evelyn" := "en-US-EvelynMultilingualNeural",
    "Fable" := "en-US-FableTurboMultilingualNeural",
    "Jenny" := "en-US-JennyMultilingualNeural",
    "Lewis" := "en-US-LewisMultilingualNeural",
    "Lola" := "en-US-LolaMultilingualNeural",
    "Nancy" := "en-US-NancyMultilingualNeural",
    "Nova" := "en-US-NovaTurboMultilingualNeural",
    "Onyx" := "en-US-OnyxTurboMultilingualNeural",
    "Phoebe" := "en-US-PhoebeMultilingualNeural",
    "Ryan" := "en-US-RyanMultilingualNeural",
    "Samuel" := "en-US-SamuelMultilingualNeural",
    "Serena" := "en-US-SerenaMultilingualNeural",
    "Shimmer" := "en-US-ShimmerTurboMultilingualNeural",
    "Steffan" := "en-US-SteffanMultilingualNeural",
    "en_amy_med" := "en-US-AvaMultilingualNeural",
    "en_bryce_med" := "en-US-BrianMultilingualNeural"
  ]

  const FallbackVoiceKey: string := "entity1"

  /** The voice for a key; an unknown key gets the `entity1` voice. */
  function GetVoiceName(key: string): (name: string)
    ensures key in VoiceMappings ==> name == VoiceMappings[key]
    ensures key !in VoiceMappings ==> name == "en-US-ChristopherMultilingualNeural"
  {
    if key in VoiceMappings then VoiceMappings[key] else VoiceMappings[FallbackVoiceKey]
  }

  /** Whatever the key, the result is one of the configured service voices. */
  lemma VoiceNameIsConfigured(key: string)
    ensures GetVoiceName(key) in VoiceMappings.Values
  {
    var k := if key in VoiceMappings then key else FallbackVoiceKey;
    assert VoiceMappings[k] == GetVoiceName(key);
  }

  /** `int((speed - 1.0) * 100)`: the speaking-rate change in percent,
      truncated toward zero as Python's `int()` does. */
  function RatePercent(speed: real): (p: int)
    ensures var x := (speed - 1.0) * 100.0;
      (x >= 0.0 ==> 0 <= p && p as real <= x < p as real + 1.0)
      && (x < 0.0 ==> p <= 0 && p as real - 1.0 < x <= p as real)
  {
    var x := (speed - 1.0) * 100.0;
    if x >= 0.0 then x.Floor else -((-x).Floor)
  }

  /** The default speed synthesises at the normal rate. */
  lemma NormalSpeedIsZeroRate()
    ensures RatePercent(1.0) == 0
  {
  }

  /** The SSML `rate` attribute: an explicit `+` before a positive change,
      the number's own `-` before a negative one, then `%`. */
  function RateString(p: int): (r: string)
    ensures |r| >= 2 && r[|r| - 1] == '%'
    ensures r[0] == '+' <==> p > 0
    ensures r[0] == '-' <==> p < 0
  {
    (if p > 0 then "+" else "") + IntToString(p) + "%"
  }

  /** Reads a rate attribute back: an optional `+`, an integer, then `%`. */
  function ParseRate(r: string): Option<int> {
    if |r| >= 2 && r[|r| - 1] == '%' then
      var body := r[..|r| - 1];
      if body[0] == '+' then
        match ParseInt(body[1..])
        case Some(v) => if v > 0 then Some(v) else None
        case None => None
      else ParseInt(body)
    else None
  }

  lemma RateStringRoundTrip(p: int)
    ensures ParseRate(RateString(p)) == Some(p)
  {
    var r := RateString(p);
    var body := r[..|r| - 1];
    IntToStringRoundTrip(p);
    if p > 0 {
      assert body == "+" + IntToString(p);
      assert body[1..] == IntToString(p);
    } else {
      assert body == IntToString(p);
    }
  }

  /** The SSML document sent when the rate differs from normal. */
  function SsmlDocument(voiceName: string, rate: string, text: string): string {
    "\n                <speak version=\"1.0\" xmlns=\"http://www.w3.org/2001/10/synthesis\" xml:lang=\"en-US\">\n"
    + "                    <voice name=\"" + voiceName + "\">\n"
    + "                        <prosody rate=\"" + rate + "\">\n"
    + "                            " + text + "\n"
    + "                        </prosody>\n"
    + "                    </voice>\n"
    + "                </speak>\n"
    + "                "
  }

  /** What is handed to the synthesiser: the plain text, or an SSML
      document carrying voice and rate. */
  datatype SynthesisInput = PlainText(text: string) | Ssml(document: string, rate: string)

  /** The file a synthesis writes: `azure_<voice key>_<milliseconds>.mp3`. */
  function AudioFileName(voiceKey: string, timestampMs: nat): string {
    "azure_" + voiceKey + "_" + NatToDecimal(timestampMs) + ".mp3"
  }

  /** `os.path.join(dir, name)` on POSIX. */
  function JoinPath(dir: string, name: string): string {
    if |name| > 0 && name[0] == '/' then name
    else if dir == [] || dir[|dir| - 1] == '/' then dir + name
    else dir + "/" + name
  }

  /** `os.path.basename(path)`: everything after the last `/`. */
  function Basename(path: string): (b: string)
    ensures |b| <= |path| && b == path[|path| - |b|..]
    ensures '/' !in b
  {
    if path == [] || path[|path| - 1] == '/' then []
    else Basename(path[..|path| - 1]) + [path[|path| - 1]]
  }

  lemma {:induction false} BasenameAfterSlash(prefix: string, name: string)
    requires '/' !in name
    ensures Basename(prefix + "/" + name) == name
    decreases |name|
  {
    var p := prefix + "/" + name;
    if name == [] {
      assert p[|p| - 1] == '/';
    } else {
      var shorter := name[..|name| - 1];
      assert p[..|p| - 1] == prefix + "/" + shorter;
      BasenameAfterSlash(prefix, shorter);
      assert shorter + [name[|name| - 1]] == name;
    }
  }

  lemma {:induction false} BasenameOfPlain(name: string)
    requires '/' !in name
    ensures Basename(name) == name
    decreases |name|
  {
    if name != [] {
      BasenameOfPlain(name[..|name| - 1]);
      assert name[..|name| - 1] + [name[|name| - 1]] == name;
    }
  }

  /** The audio URL the server derives from a generated path names exactly
      the generated file, provided the voice key holds no `/`. */
  lemma BasenameOfAudioPath(dir: string, voiceKey: string, timestampMs: nat)
    requires '/' !in voiceKey
    ensures Basename(JoinPath(dir, AudioFileName(voiceKey, timestampMs)))
            == AudioFileName(voiceKey, timestampMs)
  {
    var name := AudioFileName(voiceKey, timestampMs);
    var digits := NatToDecimal(timestampMs);
    assert '/' !in name by {
      assert name == "azure_" + voiceKey + "_" + digits + ".mp3";
      forall k | 0 <= k < |digits| ensures digits[k] != '/' {
        assert IsDigit(digits[k]);
      }
    }
    if dir == [] || dir[|dir| - 1] == '/' {
      if dir == [] {
        assert dir + name == name;
        BasenameOfPlain(name);
      } else {
        var d := dir[..|dir| - 1];
        assert dir + name == d + "/" + name;
        BasenameAfterSlash(d, name);
      }
    } else {
      BasenameAfterSlash(dir, name);
    }
  }

  /** One synthesis call as prepared by `generate_audio_file`. */
  datatype AudioRequest = AudioRequest(path: string, voiceName: string, input: SynthesisInput)

  /** Everything `generate_audio_file` decides before calling the service.
      Text that is empty after `strip()` is refused before any other work. */
  function PrepareAudio(text: string, voiceKey: string, ratePercent: int,
                        timestampMs: nat, audioDir: string): (r: Option<AudioRequest>)
    ensures r.None? <==> Trim(text, PyWhitespace) == []
    ensures r.Some? ==> r.value.path == JoinPath(audioDir, AudioFileName(voiceKey, timestampMs))
    ensures r.Some? ==> r.value.voiceName == GetVoiceName(voiceKey)
    ensures r.Some? ==> (r.value.input.PlainText? <==> ratePercent == 0)
    ensures r.Some? && ratePercent == 0 ==> r.value.input.text == Trim(text, PyWhitespace)
    ensures r.Some? && ratePercent != 0 ==> r.value.input.rate == RateString(ratePercent)
  {
    var cleaned := Trim(text, PyWhitespace);
    if cleaned == [] then None
    else
      var voiceName := GetVoiceName(voiceKey);
      var path := JoinPath(audioDir, AudioFileName(voiceKey, timestampMs));
      var input :=
        if ratePercent != 0 then
          var rate := RateString(ratePercent);
          Ssml(SsmlDocument(voiceName, rate, cleaned), rate)
        else PlainText(cleaned);
      Some(AudioRequest(path, voiceName, input))
  }

  /** `generate_audio_file`: the path of the written file, or `None` when
      the text is blank or the service did not complete the synthesis
      (`completed` stands for its result reason; a raised exception also
      yields `None`). The request sent is `PrepareAudio`'s, see
      `GeneratedFileIsRequested`. */
  function GenerateAudioFile(text: string, voiceKey: string, timestampMs: nat,
                             audioDir: string, completed: bool): Option<string>
  {
    if Trim(text, PyWhitespace) == [] || !completed then None
    else Some(JoinPath(audioDir, AudioFileName(voiceKey, timestampMs)))
  }

  /** A file is written exactly when the text survives `strip()` and the
      service completes, and it is the path of the prepared request. */
  lemma GeneratedFileIsRequested(text: string, voiceKey: string, ratePercent: int,
                                 timestampMs: nat, audioDir: string, completed: bool)
    ensures var r := GenerateAudioFile(text, voiceKey, timestampMs, audioDir, completed);
            var q := PrepareAudio(text, voiceKey, ratePercent, timestampMs, audioDir);
      && (r.Some? <==> q.Some? && completed)
      && (r.Some? ==> r.value == q.value.path)
  {
  }

  /** A file in the audio directory, with its modification time in seconds. */
  datatype AudioFile = AudioFile(name: string, mtime: real)

  /** Names the cleanup looks at: `azure_` prefix and `.wav` or `.mp3`
      suffix. */
  predicate IsManagedAudioName(name: string) {
    StartsWith(name, "azure_") && (EndsWith(name, ".wav") || EndsWith(name, ".mp3"))
  }

  /** Every file this helper writes is one the cleanup manages. */
  lemma GeneratedNamesAreManaged(voiceKey: string, timestampMs: nat)
    ensures IsManagedAudioName(AudioFileName(voiceKey, timestampMs))
  {
    var name := AudioFileName(voiceKey, timestampMs);
    assert name[..6] == "azure_";
    assert name[|name| - 4..] == ".mp3";
  }

  /** The per-file test of `cleanup_old_files`. */
  predicate IsExpired(f: AudioFile, now: real, maxAgeHours: int) {
    IsManagedAudioName(f.name) && f.mtime < now - (maxAgeHours * 3600) as real
  }

  /** The directory listing after `cleanup_old_files`: exactly the files
      that are not expired survive, in listing order. */
  function CleanupOldFiles(files: seq<AudioFile>, now: real, maxAgeHours: int): (kept: seq<AudioFile>)
    ensures |kept| <= |files|
    ensures forall f :: f in kept ==> f in files && !IsExpired(f, now, maxAgeHours)
    ensures forall f :: f in files && !IsExpired(f, now, maxAgeHours) ==> f in kept
  {
    if files == [] then []
    else
      var rest := CleanupOldFiles(files[1..], now, maxAgeHours);
      if IsExpired(files[0], now, maxAgeHours) then rest else [files[0]] + rest
  }

  /** A second cleanup at the same moment finds nothing more to delete. */
  lemma {:induction false} CleanupOldFilesIdempotent(files: seq<AudioFile>, now: real, maxAgeHours: int)
    ensures CleanupOldFiles(CleanupOldFiles(files, now, maxAgeHours), now, maxAgeHours)
            == CleanupOldFiles(files, now, maxAgeHours)
    decreases |files|
  {
    if files != [] {
      CleanupOldFilesIdempotent(files[1..], now, maxAgeHours);
      var rest := CleanupOldFiles(files[1..], now, maxAgeHours);
      if !IsExpired(files[0], now, maxAgeHours) {
        assert ([files[0]] + rest)[1..] == rest;
      }
    }
  }

  /** With a maximum age of zero hours (shutdown and per-conversation
      cleanup) every generated file older than `now` is gone. */
  lemma CleanupAllRemovesGenerated(files: seq<AudioFile>, now: real,
                                   voiceKey: string, timestampMs: nat, mtime: real)
    requires mtime < now
    ensures AudioFile(AudioFileName(voiceKey, timestampMs), mtime) !in CleanupOldFiles(files, now, 0)
  {
    GeneratedNamesAreManaged(voiceKey, timestampMs);
  }

  /** The helper's mutable state that the dialogue server touches. */
  datatype Helper = Helper(audioDir: string, stopRequested: bool)

  function StopAllAudio(h: Helper): (r: Helper)
    ensures r.stopRequested
    ensures r.audioDir == h.audioDir
  {
    h.(stopRequested := true)
  }

  function ResetStopFlag(h: Helper): (r: Helper)
    ensures !r.stopRequested
    ensures r.audioDir == h.audioDir
  {
    h.(stopRequested := false)
  }

  /** The two flag operations are inverse on a helper that was not stopped,
      and each is idempotent. */
  lemma StopFlagRoundTrip(h: Helper)
    ensures !h.stopRequested ==> ResetStopFlag(StopAllAudio(h)) == h
    ensures h.stopRequested ==> StopAllAudio(ResetStopFlag(h)) == h
    ensures StopAllAudio(StopAllAudio(h)) == StopAllAudio(h)
    ensures ResetStopFlag(ResetStopFlag(h)) == ResetStopFlag(h)
  {
  }
}

=== FILE: waveform.dfy ===
/** The opacity fade of the two circular waveforms (script.js). Opacity is a
    bounded counter in whole steps: `Full` steps make opacity 1.0 and one
    step is `fadeSpeed` (0.05). Each animation frame of the drawing loop
    fades in by one step, capped at full; each frame of the fade-out loop
    fades out by two steps, floored at zero. The drawing itself is not
    modelled, only which canvas is painted or cleared.

    There is a single animation handle for both entities, so the loop is
    at most one entity's at a time. */
module Waveform {

  import opened Common

  /** Opacity 1.0, in steps of `fadeSpeed` = 0.05. */
  const Full: nat := 20

  datatype Waves = Waves(
    opacity: Pair<nat>,
    loop: Option<Entity>,  // whose drawing loop `waveformAnimationId` runs
    active: Pair<bool>)    // the container's `active` class

  const Initial: Waves := Waves(Pair(0, 0), None, Pair(false, false))

  predicate Valid(w: Waves) {
    w.opacity.one <= Full && w.opacity.two <= Full
  }

  /** Canvas effects of a step. */
  datatype Paint = Draw(entity: Entity, opacity: nat) | Clear(entity: Entity)

  datatype Stepped = Stepped(waves: Waves, paint: seq<Paint>)

  function FadeIn(o: nat): nat {
    if o + 1 < Full then o + 1 else Full
  }

  function FadeOut(o: nat): nat {
    if o >= 2 then o - 2 else 0
  }

  /** One frame of entity `e`'s drawing loop: fade in and repaint. A frame
      of a loop that has been cancelled never fires. */
  function DrawFrame(w: Waves, e: Entity): (r: Stepped)
    ensures Valid(w) ==> Valid(r.waves)
    ensures r.waves.opacity.Get(e.Other()) == w.opacity.Get(e.Other())
    ensures w.loop == Some(e) ==> r.paint == [Draw(e, r.waves.opacity.Get(e))]
    ensures w.loop != Some(e) ==> r == Stepped(w, [])
  {
    if w.loop == Some(e) then
      var o := FadeIn(w.opacity.Get(e));
      Stepped(w.(opacity := w.opacity.Set(e, o)), [Draw(e, o)])
    else Stepped(w, [])
  }

  /** `startWaveformAnimation`: cancel whatever loop runs, then (when the
      analyser and canvas exist) mark the container active and run the
      first frame of a new loop for `e`. */
  function StartAnimation(w: Waves, e: Entity, ready: bool): (r: Stepped)
    ensures Valid(w) ==> Valid(r.waves)
    ensures r.waves.loop == (if ready then Some(e) else None)
    ensures r.waves.opacity.Get(e.Other()) == w.opacity.Get(e.Other())
    ensures ready ==> r.waves.active.Get(e) && r.waves.opacity.Get(e) > 0
    ensures !ready ==> r.paint == [] && r.waves.opacity == w.opacity && r.waves.active == w.active
  {
    var cancelled := w.(loop := None);
    if !ready then Stepped(cancelled, [])
    else DrawFrame(cancelled.(loop := Some(e), active := w.active.Set(e, true)), e)
  }

  /** One frame of `stopWaveformAnimation`'s fade-out loop for `e`. Only
      the frame that reaches zero cancels the (shared) drawing loop, removes
      the active class and clears the canvas; earlier frames leave both
      alone. */
  function FadeOutFrame(w: Waves, e: Entity): (r: Stepped)
    ensures Valid(w) ==> Valid(r.waves)
    ensures r.waves.opacity.Get(e) < w.opacity.Get(e) || r.waves.opacity.Get(e) == 0
    ensures r.waves.opacity.Get(e.Other()) == w.opacity.Get(e.Other())
    ensures r.paint == [Clear(e)] <==> r.waves.opacity.Get(e) == 0
    ensures r.waves.opacity.Get(e) > 0 ==> r.paint == [] && r.waves.loop == w.loop && r.waves.active == w.active
    ensures r.waves.opacity.Get(e) == 0 ==> r.waves.loop.None? && !r.waves.active.Get(e)
  {
    var o := FadeOut(w.opacity.Get(e));
    var faded := w.(opacity := w.opacity.Set(e, o));
    if o > 0 then Stepped(faded, [])
    else Stepped(faded.(loop := None, active := w.active.Set(e, false)), [Clear(e)])
  }

  /** `stopWaveformAnimation`: the fade-out loop's first frame runs at once. */
  function StopAnimation(w: Waves, e: Entity): Stepped {
    FadeOutFrame(w, e)
  }

  /** `n` frames of `e`'s drawing loop in a row. */
  function DrawFrames(w: Waves, e: Entity, n: nat): Waves
    decreases n
  {
    if n == 0 then w else DrawFrames(DrawFrame(w, e).waves, e, n - 1)
  }

  /** `n` frames of `e`'s fade-out loop in a row. */
  function FadeOutFrames(w: Waves, e: Entity, n: nat): Waves
    decreases n
  {
    if n == 0 then w else FadeOutFrames(FadeOutFrame(w, e).waves, e, n - 1)
  }

  /** While `e`'s loop runs, `n` frames raise its opacity by `n` steps,
      capped at full. */
  lemma {:induction false} DrawFramesFadeIn(w: Waves, e: Entity, n: nat)
    requires w.loop == Some(e) && Valid(w)
    ensures var o := w.opacity.Get(e);
            DrawFrames(w, e, n).opacity.Get(e) == if o + n < Full then o + n else Full
    ensures DrawFrames(w, e, n).loop == Some(e)
    decreases n
  {
    if n > 0 {
      DrawFramesFadeIn(DrawFrame(w, e).waves, e, n - 1);
    }
  }

  /** `n` fade-out frames lower `e`'s opacity by `2 * n` steps, floored at
      zero. */
  lemma {:induction false} FadeOutFramesFadeOut(w: Waves, e: Entity, n: nat)
    ensures var o := w.opacity.Get(e);
            FadeOutFrames(w, e, n).opacity.Get(e) == if o >= 2 * n then o - 2 * n else 0
    decreases n
  {
    if n > 0 {
      FadeOutFramesFadeOut(FadeOutFrame(w, e).waves, e, n - 1);
    }
  }

  /** The fade-out always ends: after `(o + 1) / 2` fade-out frames with
      no drawing frame of `e` in between (its loop already cancelled, by
      a halt or by another entity's start) the opacity is zero, the
      drawing loop is cancelled and the container is inactive; one frame
      fewer, and it is still visible. */
  lemma FadeOutEnds(w: Waves, e: Entity)
    requires w.opacity.Get(e) > 0
    ensures var k := (w.opacity.Get(e) + 1) / 2;
            && k >= 1
            && FadeOutFrames(w, e, k - 1).opacity.Get(e) > 0
            && var last := FadeOutFrame(FadeOutFrames(w, e, k - 1), e);
            && last.paint == [Clear(e)]
            && last.waves.loop.None? && !last.waves.active.Get(e)
  {
    var k := (w.opacity.Get(e) + 1) / 2;
    FadeOutFramesFadeOut(w, e, k - 1);
  }

  /** A playback that ends normally starts the fade-out while `e`'s own
      drawing loop still runs, so every fade-out frame competes with a
      drawing frame. One drawing frame followed by one fade-out frame
      lowers the opacity by one step (by two from full, where the drawing
      frame is capped), and the loop keeps running while anything is
      left. */
  lemma DrawThenFade(w: Waves, e: Entity)
    requires w.loop == Some(e) && Valid(w) && w.opacity.Get(e) > 0
    ensures var o := w.opacity.Get(e);
            var w' := FadeOutFrame(DrawFrame(w, e).waves, e).waves;
      && w'.opacity.Get(e) == (if o < Full then o - 1 else Full - 2)
      && (w'.opacity.Get(e) > 0 ==> w'.loop == Some(e))
  {
  }

  /** `n` rounds of one drawing frame and one fade-out frame of `e`. */
  function DrawFadeFrames(w: Waves, e: Entity, n: nat): Waves
    decreases n
  {
    if n == 0 then w else DrawFadeFrames(FadeOutFrame(DrawFrame(w, e).waves, e).waves, e, n - 1)
  }

  /** With its own loop still running, `e` fades from `o` steps (below
      full) to zero in exactly `o` rounds, not `(o + 1) / 2`: after
      `n < o` rounds `o - n` steps are left and the loop still runs; the
      `o`-th round cancels it. */
  lemma {:induction false} DrawFadeFramesFadeOut(w: Waves, e: Entity, n: nat)
    requires w.loop == Some(e) && Valid(w) && 0 < w.opacity.Get(e) < Full && n <= w.opacity.Get(e)
    ensures DrawFadeFrames(w, e, n).opacity.Get(e) == w.opacity.Get(e) - n
    ensures n < w.opacity.Get(e) ==> DrawFadeFrames(w, e, n).loop == Some(e)
    ensures n == w.opacity.Get(e) ==> DrawFadeFrames(w, e, n).loop.None?
    decreases n
  {
    if n > 0 {
      var w1 := FadeOutFrame(DrawFrame(w, e).waves, e).waves;
      DrawThenFade(w, e);
      if w.opacity.Get(e) > 1 {
        DrawFadeFramesFadeOut(w1, e, n - 1);
      }
    }
  }

  /** From full opacity, a fade-out that starts while `e`'s loop runs
      takes `Full - 1` = 19 rounds, not 10. */
  lemma FullFadeWhileDrawing(w: Waves, e: Entity)
    requires w.loop == Some(e) && w.opacity.Get(e) == Full && w.opacity.Get(e.Other()) <= Full
    ensures DrawFadeFrames(w, e, Full - 2).opacity.Get(e) > 0
    ensures DrawFadeFrames(w, e, Full - 1).opacity.Get(e) == 0
    ensures DrawFadeFrames(w, e, Full - 1).loop.None?
  {
    var w1 := FadeOutFrame(DrawFrame(w, e).waves, e).waves;
    DrawThenFade(w, e);
    DrawFadeFramesFadeOut(w1, e, Full - 3);
    DrawFadeFramesFadeOut(w1, e, Full - 2);
    assert DrawFadeFrames(w, e, Full - 2) == DrawFadeFrames(w1, e, Full - 3);
    assert DrawFadeFrames(w, e, Full - 1) == DrawFadeFrames(w1, e, Full - 2);
  }

  /** The handle is shared: fading out one entity to zero also stops the
      other entity's drawing loop. */
  lemma FadeOutStopsOtherLoop(w: Waves, e: Entity)
    requires w.loop == Some(e.Other()) && w.opacity.Get(e) <= 2
    ensures FadeOutFrame(w, e).waves.loop.None?
    ensures DrawFrame(FadeOutFrame(w, e).waves, e.Other()).paint == []
  {
  }
}
